=== FILE: README.md ===
# light-control, modelled in Dafny

light-control switches a house's lights from a web page, from voice and from a
firmware update script. The lights are ESP32 boards that take a servo angle over
Telnet ("0" is on, "180" is off) and Kasa smart plugs that the `kasa` command-line
tool switches. This project models the logic around the external programs and proves
properties of it:

- `config.txt` loading (`main.py`, module `Config`). Each line is `name - ip`. Lines
  without a dash are skipped, and so are addresses that do not validate. A later line
  with the same name overwrites the earlier one in place. A line with two or more
  dashes raises and aborts the request.
- dispatch and the web routes (`main.py`, module `Control`):
  - `send_kasa_command`, with its quirk for the plug at 10.0.0.132: a successful
    `off` is followed by an `on`, so that plug ends up on;
  - `send_command`;
  - `send_command_to_all`;
  - `turn_on`, `turn_off`, `turn_on_all`, `turn_off_all`;
  - the index page's display names.
- the voice trigger (`main_voice.py`, module `Voice`). The two case-insensitive regular
  expressions are given a declarative meaning. A greedy matcher is proved to decide
  exactly that meaning. On top of it sits `scan_file_for_phrases`, where "on" takes
  priority over "off".
- the over-the-air updater (`auto-update/auto-update.py`, module `Ota`). It covers:
  - which sketches are compiled;
  - the device-list parse;
  - the type and location filters, which ignore case, and the binary lookup, which
    does not;
  - the bounded ping retry;
  - the rule that a firmware upload only follows a ping that answered;
  - that a failed compile ends the script.
- Python's `str` behaviour these scripts depend on (module `Text`): `strip`, `lstrip`,
  `split`, `join`, `lower` and `in`.

The external world enters as functions passed as parameters:

- the Kasa and Telnet devices map a call to a reply or an exception (`Control.Devices`);
- address validation is a normaliser (`Config.Normalizer`), standing for
  `str(ipaddress.ip_address(...))`;
- `arduino-cli`, `ping` and `espota.py` are exit-code functions (`Ota.Env`).

## Model

| member | source | states |
|---|---|---|
| `Config.IndexOf` | main.py:31 | no position exactly when the name is absent; otherwise the first position holding it |
| `Config.Get` | main.py:31 | a name is absent exactly when it is not among the registry's names; a found light belongs to an entry with that name |
| `Config.Put` | main.py:31 | assigning to an existing name keeps the order of names, a new name is appended at the end, and no other entry appears |
| `Config.PutGet` | main.py:31 | after an assignment the assigned name reads the new light and every other name reads what it read before |
| `Config.PutUnique` | main.py:31 | assignment keeps the names distinct |
| `Config.ParseLine` | main.py:25-33 | a line fails ("too many values to unpack") exactly when it has two or more dashes. With exactly one dash, the stripped left side is the name and the address is the normalised stripped right side. A line without a dash, or with an address that does not validate, is skipped. The Kasa flag is set exactly when the name starts with `$`. |
| `Config.LoadConfig` | main.py:20-36 | a missing file gives an empty registry; an existing file fails exactly when some line is malformed, and the error names the first malformed line |
| `Config.LoadLines` | main.py:24-33 | a failed loop names one of its own lines, and that line has two or more dashes; `LoadLinesFailure`, `LoadLinesStep`, `LoadLinesBuilds` and `LoadLinesWellFormed` state the rest |
| `Config.LoadLinesFailure` | main.py:24-26 | the line loop fails exactly when a line has two or more dashes, reporting the first such line |
| `Config.LoadLinesWellFormed` | main.py:30-31 | a loaded registry has distinct names and every entry's Kasa flag matches its name's `$` prefix |
| `Config.LoadLinesBuilds` | main.py:24-31 | the line loop's registry is the fold of dictionary assignment over the entries of the valid lines |
| `Config.LoadLinesStep` | main.py:24-31 | a line that does not raise assigns its entry, if it has one, and the loop continues with the next line |
| `Config.BuildAppend` | main.py:24-31 | assigning two runs of entries in turn is assigning them one after the other |
| `Config.BuildGet` | main.py:31 | after the fold, each name reads the light of its last entry, or what it read before the fold if it has none |
| `Config.BuildOrder` | main.py:31 | after the fold, the names are in first-occurrence order |
| `Config.DistinctFirstOccurrences` | main.py:31 | first-occurrence order lists each name once and keeps distinct names as they are |
| `Config.LoadedLights` | main.py:20-36 | in a loaded file, a name maps to the light of its last valid line, and to nothing when no valid line has it |
| `Config.LoadedOrder` | main.py:20-36 | the names of a loaded file come in the order of their first valid line |
| `Config.LoadedWellFormed` | main.py:20-36 | a loaded file's names are distinct and each Kasa flag matches the name's `$` prefix |
| `Control.KasaActionFor` | main.py:56 | the Kasa action is `on` exactly for the command "0" |
| `Control.SendKasaCommand` | main.py:39-50 | the first call switches the plug as asked. A second call, `on`, happens exactly when an `off` to 10.0.0.132 went through. Success means every call went through, and a successful dispatch leaves the plug in the state of its last call. The failure text is that of the first call that raised. |
| `Control.SendCommand` | main.py:53-67 | a Kasa light gets the mapped action. Any other light gets exactly one Telnet call carrying the command, and a reply from it is stripped. Every call goes to the given address. Success means every call was answered. A Kasa light's dispatch is `send_kasa_command` with the mapped action, the 10.0.0.132 re-on and success text included. |
| `Control.SendCommandToAll` | main.py:70-77 | one result per configured light, in registry order, each the dispatch of the command to that light |
| `Control.FailedNames` | main.py:151-156 | a name is listed exactly when its light's dispatch failed; the list is empty exactly when every dispatch succeeded |
| `Control.TurnAll` | main.py:148-172 | a load error answers as a server error with no call. Otherwise the reply succeeds exactly when every light succeeded. A failure reply names the failed lights in order, joined with ", ". The calls issued are the fan-out's calls. |
| `Control.EmptyFanOutSucceeds` | main.py:151 | an empty configuration turns all on or off successfully with no call |
| `Control.FanOutFollowsRegistry` | main.py:73-76 | the fan-out answers once per configured name, in order, with that light's address |
| `Control.FailedNamesAppend` | main.py:156 | the failed names of consecutive results are the failed names of each part in turn |
| `Control.FindKasaFlag` | main.py:111-114 | no flag exactly when no light has the address; otherwise the flag of the first light that has it |
| `Control.TurnOnAll` | main.py:148-159 | a load error answers as a server error with no call; otherwise the calls are those of sending "0" to every light, the reply succeeds exactly when every light's dispatch did, and a failure names the failed lights after "Failed to turn on: " |
| `Control.TurnOffAll` | main.py:161-172 | a load error answers as a server error with no call; otherwise the calls are those of sending "180" to every light, the reply succeeds exactly when every light's dispatch did, and a failure names the failed lights after "Failed to turn off: " |
| `Control.Toggle` | main.py:107-145 | an unknown address answers "IP address not found" with no call. A known address sends the command with that light's Kasa flag. Once the configuration loaded, the reply is a success or a failure, never a server error, and its success and text are the dispatch's. |
| `Control.RoutesSendTheirCommand` | main.py:119-145 | a Telnet light switched from `/on` or `/off` gets exactly one call, carrying "0" or "180", and a success answers with the stripped reply |
| `Control.TurnOn` | main.py:107-125 | an unknown address answers "IP address not found" with no call; a known one is first sent "0" over Telnet, or Kasa `on` |
| `Control.TurnOff` | main.py:127-145 | an unknown address answers "IP address not found" with no call; a known one is first sent "180" over Telnet, or Kasa `off` |
| `Control.KasaRouteOn` | main.py:107-125 | a Kasa light switched on from its route gets `send_kasa_command`'s calls, and a success answers "Kasa device on successfully" |
| `Control.KasaRouteOff` | main.py:127-145 | a Kasa light switched off from its route gets `send_kasa_command`'s calls, the quirk plug's re-on included, and a success answers "Kasa device off successfully" |
| `Control.QuirkPlugEndsOn` | main.py:44-46 | a successful OFF to the Kasa plug at 10.0.0.132 issues `off` then `on` |
| `Control.Buttons` | main.py:85-92 | one button per light in registry order, with its address; the title has no leading `$`, and the name is a run of `$` followed by the title |
| `Text.Strip` | main.py:26 | the result sits inside the input with only whitespace around it, and neither starts nor ends with whitespace |
| `Text.TrimStartChar` | main.py:87 | the result is a suffix, only the character was dropped before it, and it does not start with that character |
| `Text.Lower` | auto-update/auto-update.py:92-97 | the same length, each character lower-cased (ASCII) |
| `Text.FindFrom` | auto-update/auto-update.py:80 | the first occurrence at or after the start position, or none |
| `Text.Split` | auto-update/auto-update.py:80 | at least one piece; `JoinSplit`, `SplitPiecesFree`, `SplitLeftmost` and `SplitUnique` fix the pieces as Python's `str.split` does |
| `Text.Join` | main.py:157 | no parts join to the empty string; otherwise the length is the pieces' lengths plus one separator between each two |
| `Text.JoinSplit` | auto-update/auto-update.py:80 | joining the pieces of a split with the separator gives back the string |
| `Text.SplitPiecesFree` | auto-update/auto-update.py:80 | no piece of a split contains the separator |
| `Text.SplitLeftmost` | auto-update/auto-update.py:80 | every cut of a split is at the leftmost occurrence of the separator in what remains, so overlapping occurrences are cut at the first |
| `Text.SplitUnique` | auto-update/auto-update.py:80 | any pieces that join back to the string, are cut leftmost and end with a separator-free piece are exactly the split |
| `Text.SplitCharCount` | main.py:26 | splitting on one character gives one more piece than it has occurrences |
| `Voice.Skip` | main_voice.py:33-34 | the end of the longest run of a character class |
| `Voice.SkipExact` | main_voice.py:33-34 | a run that cannot be extended is the one `Skip` finds |
| `Voice.MatchesAtStartCorrect` | main_voice.py:33-34 | the greedy matcher succeeds at a position exactly when a prefix there splits as `light\s*[.,;!?]*\s*KW\s*[.,;!?]*\s` |
| `Voice.GreedyComplete` | main_voice.py:33-34 | any split of a pattern word at a position is found by the greedy matcher |
| `Voice.SearchFrom` | main_voice.py:37-38 | the scan from a position succeeds exactly when the matcher succeeds at some later position |
| `Voice.Search` | main_voice.py:37-38 | the search succeeds exactly when some substring is a word of the pattern |
| `Voice.SearchCorrect` | main_voice.py:37-38 | the position scan and the pattern's meaning agree, in both directions |
| `Voice.ScanFileForPhrases` | main_voice.py:28-48 | "0" is sent exactly when an "on" phrase occurs. "180" is sent exactly when none does and an "off" phrase occurs. A detection clears the file; otherwise the file is unchanged. |
| `Voice.DetectionFiresOnce` | main_voice.py:40-48 | after a detection clears the file, the next scan sends nothing |
| `Voice.SearchIgnoresCase` | main_voice.py:33-34 | lower-casing the content does not change whether a phrase occurs |
| `Voice.FlightOnMatches` | main_voice.py:33 | "flight on " triggers "on": the pattern has no word boundary |
| `Voice.NoTrailingSpaceNoMatch` | main_voice.py:33-34 | "light on" with nothing after it triggers nothing: the final `\s` is required |
| `Voice.NoLateSpaceNoMatch` | main_voice.py:33-34 | content with no whitespace character at index 7 or later matches neither pattern |
| `Ota.Binary` | auto-update/auto-update.py:9-12 | a binary exists exactly for the device types spelled "Flat" and "Rocker" |
| `Ota.SketchesToCompile` | auto-update/auto-update.py:63-74 | a type's sketch is compiled exactly when compiling is not skipped and the type filter admits it. Each sketch is compiled once, and flat comes first. |
| `Ota.ParseDevice` | auto-update/auto-update.py:79-83 | a line gives a device exactly when its stripped text splits into three fields on " - ". The fields join back to the stripped line, none contains " - ", and each cut is at the leftmost " - ". |
| `Ota.ParseDeviceFields` | auto-update/auto-update.py:79-83 | fields that join back to the stripped line, are cut leftmost and leave no " - " in the type are the device the line gives |
| `Ota.OverlappingSeparators` | auto-update/auto-update.py:80-82 | the line "x - - y - z" gives location "x", address "- y" and type "z" |
| `Ota.ParseDevices` | auto-update/auto-update.py:77-83 | a device is listed exactly when some line parses to it, and there are no more devices than lines |
| `Ota.ParseDevicesComplete` | auto-update/auto-update.py:79-83 | every line that splits into three fields puts its device in the list |
| `Ota.ParseDevicesSound` | auto-update/auto-update.py:79-83 | every listed device is the device of some line |
| `Ota.ParseDevicesSingle` | auto-update/auto-update.py:79-83 | a single line gives its device, or nothing when it does not split into three fields |
| `Ota.ParseDevicesAppend` | auto-update/auto-update.py:79-83 | the devices of two consecutive parts of the file are those of each part in order |
| `Ota.Select` | auto-update/auto-update.py:86-109 | the type filter rejects first and the location filter second, both ignoring case. A kept device without a binary for its exact type is reported. Otherwise the binary is that of its type. |
| `Ota.CandidateIsCompiled` | auto-update/auto-update.py:63-101 | a device selected for update has its type's sketch among those compiled, unless compiling was skipped |
| `Ota.LowercaseKindHasNoBinary` | auto-update/auto-update.py:89-109 | a device listed as "flat" passes `--light-type flat` but finds no binary |
| `Ota.FiltersIgnoreCase` | auto-update/auto-update.py:92-97 | lower-casing a device's type or location does not change whether a filter keeps it |
| `Ota.CompileAll` | auto-update/auto-update.py:15-25 | every sketch compiles, or the run stops at the first failing one and carries its exit code |
| `Ota.PingFrom` | auto-update/auto-update.py:28-41 | reachable exactly when some remaining attempt answers; it stops at the first answer, and it uses every attempt when none answers |
| `Ota.PingDevice` | auto-update/auto-update.py:28-41 | reachable exactly when one of the first `max_attempts` pings answers; no more pings than `max(0, max_attempts)`; every ping before the last failed; an unreachable device was pinged exactly `max(0, max_attempts)` times |
| `Ota.UpdateDevice` | auto-update/auto-update.py:86-110 | a filtered-out device, or one without a binary, causes no call and is reported as such. A selected one is reported unreachable exactly when no ping answered. At most six calls are made. |
| `Ota.UpdateDeviceContact` | auto-update/auto-update.py:101-105 | a selected device gets pings 0, 1, … up to the first that answers, then the upload of its binary if one answered, and nothing else |
| `Ota.UpdateDeviceUploads` | auto-update/auto-update.py:101-105 | a binary is uploaded to the device exactly when the device was selected with that binary and answered a ping |
| `Ota.UpdateDeviceReport` | auto-update/auto-update.py:44-53 | a device that answered is reported updated exactly when `espota.py` exits with 0, and otherwise failed with that exit code |
| `Ota.UpdateDeviceOrder` | auto-update/auto-update.py:101-105 | an upload follows immediately a ping of the same address that answered, and carries a known binary |
| `Ota.UpdateAll` | auto-update/auto-update.py:86-110 | one report per device, in order, each the report of that device; a single device's actions are its own |
| `Ota.UpdateAllAppend` | auto-update/auto-update.py:86-110 | the actions of the loop over two consecutive runs of devices are those of each run in order |
| `Ota.UpdateAllOrder` | auto-update/auto-update.py:86-110 | across the loop, every upload follows immediately a successful ping of the same address |
| `Ota.Run` | auto-update/auto-update.py:15-110 | the script exits exactly when some selected sketch fails to compile, with the first failing sketch's exit code, after compiling the sketches up to that one in order and nothing else. Otherwise a missing config.txt stops it after the compiles, with no device reported. Otherwise every selected sketch is compiled first, in order, then each parsed device gets its report and the loop's actions follow. |
| `Ota.CompileFailureStops` | auto-update/auto-update.py:23-25 | after a failed compile, no device is pinged or updated |
| `Ota.UploadOnlyAfterPing` | auto-update/auto-update.py:101-107 | over the whole script, every upload follows immediately a successful ping of the same address |

## Left out

- Logging, `time.sleep`, the Flask server and HTML rendering, JSON encoding and the
  monitor thread of the voice script are not modelled. The routes are modelled as
  functions of the loaded configuration and the devices' answers.
- Reading and writing files. `config.txt` is a sequence of lines, or absent. The
  transcription file is its content; clearing it yields the empty content.
- `ipaddress.ip_address` is not modelled. It enters as a normaliser that returns the
  canonical address or rejects the text.
- The devices' behaviour. A device's answer depends only on the call, so the same call
  repeated within one request gets the same answer.
- The ping program's behaviour. Its exit code depends on the address and the attempt
  number. Two devices with the same address see the same sequence of answers.
- The `espota.py` program's behaviour. Its exit code depends on the address and the
  binary, so two listed devices with the same address and type get the same result.
- `subprocess` failures other than a nonzero exit code, such as a missing executable,
  and the exit status that `sys.exit` derives from a negative return code.
- Text.Lower, Voice.LiteralAt, Ota.TypeMatches and Ota.LocationMatches: ASCII case
  folding only, so `Voice.ScanFileForPhrases` and `Ota.Select` inherit it. Python's
  `re.IGNORECASE` and `str.lower` also fold other Unicode letters, such as the dotless ı,
  which `re` matches against `i`.
- The voice script's `send_command` to the board at 10.0.0.176 is the `sent` field of
  `Voice.Reaction`. Its own failure handling only prints.
- The schedules feature has no server code in the repository. `static/script.js` and
  `transcribe.py` are not part of this model.

=== FILE: config.dfy ===
/**
 The light registry of main.py: `load_config` reads `name - ip` lines into a
 dictionary from light name to its address and whether it is a Kasa plug.
 The dictionary is a sequence of entries in insertion order with distinct names,
 as a Python dict is: overwriting a key keeps the key's original position.
 Address validation (`ipaddress.ip_address`) is the parameter `normalize`.
 */
module Config {
  import opened Wrappers
  import Text

  datatype Light = Light(ip: string, isKasa: bool)

  datatype Entry = Entry(name: string, light: Light)

  /** The dictionary load_config returns, in iteration order. */
  type Registry = seq<Entry>

  /** The exception that escapes load_config: a line with several dashes cannot unpack into two names. */
  datatype LoadError = TooManyValuesToUnpack(line: string)

  /** Validation and normalisation of an address: its canonical text, or None where Python raises ValueError. */
  type Normalizer = string -> Option<string>

  predicate UniqueNames(r: Registry) {
    forall i, j :: 0 <= i < j < |r| ==> r[i].name != r[j].name
  }

  /** The keys of the dictionary, in iteration order. */
  function Names(r: Registry): (ns: seq<string>)
    ensures |ns| == |r|
    ensures forall i :: 0 <= i < |r| ==> ns[i] == r[i].name
  {
    seq(|r|, i requires 0 <= i < |r| => r[i].name)
  }

  /** The position of the first occurrence of `name` in `ns`. */
  function IndexOf(ns: seq<string>, name: string): (i: Option<nat>)
    ensures i.None? <==> name !in ns
    ensures i.Some? ==> i.value < |ns| && ns[i.value] == name && forall j :: 0 <= j < i.value ==> ns[j] != name
    decreases |ns|
  {
    if |ns| == 0 then None
    else if ns[0] == name then Some(0)
    else
      match IndexOf(ns[1..], name)
      case None => None
      case Some(i) => Some(i + 1)
  }

  /** A first occurrence is the one `IndexOf` finds. */
  lemma IndexOfFirst(ns: seq<string>, name: string, i: nat)
    requires i < |ns| && ns[i] == name && forall j :: 0 <= j < i ==> ns[j] != name
    ensures IndexOf(ns, name) == Some(i)
  {
  }

  /** `config.get(name)`. */
  function Get(r: Registry, name: string): (l: Option<Light>)
    ensures l.None? <==> name !in Names(r)
    ensures l.Some? ==> Entry(name, l.value) in r
  {
    match IndexOf(Names(r), name)
    case None => None
    case Some(i) => Some(r[i].light)
  }

  /** `config[e.name] = e.light`: overwrite the value in place, or append a new key. */
  function Put(r: Registry, e: Entry): (r': Registry)
    ensures e.name in Names(r) ==> Names(r') == Names(r)
    ensures e.name !in Names(r) ==> r' == r + [e]
    ensures forall x :: x in r' ==> x == e || x in r
  {
    match IndexOf(Names(r), e.name)
    case None => r + [e]
    case Some(i) =>
      var r' := r[i := e];
      assert Names(r') == Names(r);
      r'
  }

  /** After an assignment the name holds the new light and every other name is untouched. */
  lemma PutGet(r: Registry, e: Entry, n: string)
    ensures Get(Put(r, e), n) == if n == e.name then Some(e.light) else Get(r, n)
  {
    var r' := Put(r, e);
    var at := IndexOf(Names(r), e.name);
    if at.None? {
      assert Names(r') == Names(r) + [e.name];
      var found := IndexOf(Names(r), n);
      if found.Some? {
        IndexOfFirst(Names(r'), n, found.value);
      } else if n == e.name {
        IndexOfFirst(Names(r'), n, |r|);
      }
    }
  }

  /** An assignment keeps the names distinct. */
  lemma PutUnique(r: Registry, e: Entry)
    requires UniqueNames(r)
    ensures UniqueNames(Put(r, e))
  {
    var r' := Put(r, e);
    if e.name in Names(r) {
      forall i, j | 0 <= i < j < |r'|
        ensures r'[i].name != r'[j].name
      {
        assert Names(r')[i] == Names(r)[i] && Names(r')[j] == Names(r)[j];
      }
    }
  }

  /** One dash at `k` splits `line` into a light name and an address, as the unpacking on one line does. */
  predicate DashAt(line: string, k: int) {
    0 <= k < |line| && line[k] == '-' && Text.CountChar(line, '-') == 1
  }

  /** What one line of config.txt contributes: nothing, an entry, or the exception that ends the load. */
  function ParseLine(line: string, normalize: Normalizer): (r: Result<Option<Entry>, LoadError>)
    ensures r.Failure? <==> Text.CountChar(line, '-') >= 2
    ensures r.Failure? ==> r.error == TooManyValuesToUnpack(line)
    ensures r.Success? && r.value.Some? ==>
      exists k :: DashAt(line, k)
        && r.value.value.name == Text.Strip(line[..k])
        && normalize(Text.Strip(line[k + 1..])) == Some(r.value.value.light.ip)
    ensures r.Success? && r.value.Some? ==> (r.value.value.light.isKasa <==> Text.StartsWith(r.value.value.name, '$'))
    ensures r == Success(None) <==>
      '-' !in line || exists k :: DashAt(line, k) && normalize(Text.Strip(line[k + 1..])).None?
  {
    Text.CountCharPositive(line, '-');
    if '-' !in line then
      Success(None)
    else
      var parts := Text.Split(line, "-");
      Text.SplitCharCount(line, '-');
      if |parts| != 2 then
        Failure(TooManyValuesToUnpack(line))
      else
        DashOf(line, parts);
        var name := Text.Strip(parts[0]);
        var raw := Text.Strip(parts[1]);
        match normalize(raw)
        case None => Success(None)
        case Some(ip) => Success(Some(Entry(name, Light(ip, Text.StartsWith(name, '$')))))
  }

  /** A two-piece split locates the single dash, and the pieces are the text around it. */
  lemma DashOf(line: string, parts: seq<string>)
    requires parts == Text.Split(line, "-") && |parts| == 2
    ensures var k := |parts[0]|; DashAt(line, k) && parts[0] == line[..k] && parts[1] == line[k + 1..]
    ensures forall j :: DashAt(line, j) ==> j == |parts[0]|
  {
    Text.JoinSplit(line, "-");
    Text.SplitCharCount(line, '-');
    Text.JoinCons(parts[0], parts[1..], "-");
    assert parts[1..] == [parts[1]];
    var k := |parts[0]|;
    assert line == parts[0] + "-" + parts[1];
    assert line[..k] == parts[0];
    assert line[k + 1..] == parts[1];
    forall j | DashAt(line, j)
      ensures j == k
    {
      if j != k {
        TwoDashes(line, j, k);
      }
    }
  }

  /** Two distinct dashes make the count at least two. */
  lemma TwoDashes(line: string, i: nat, j: nat)
    requires i < |line| && j < |line| && i != j && line[i] == '-' && line[j] == '-'
    ensures Text.CountChar(line, '-') >= 2
  {
    var a, b := if i < j then i else j, if i < j then j else i;
    assert line == line[..a + 1] + line[a + 1..];
    Text.CountCharAppend(line[..a + 1], line[a + 1..], '-');
    Text.CountCharPositive(line[..a + 1], '-');
    assert line[a + 1..][b - a - 1] == '-';
    Text.CountCharPositive(line[a + 1..], '-');
  }

  /** The body of load_config once config.txt is open: the loop over its lines, in order. */
  function LoadLines(acc: Registry, lines: seq<string>, normalize: Normalizer): (r: Result<Registry, LoadError>)
    ensures r.Failure? ==> r.error.line in lines && Text.CountChar(r.error.line, '-') >= 2
    decreases |lines|
  {
    if |lines| == 0 then Success(acc)
    else
      match ParseLine(lines[0], normalize)
      case Failure(err) => Failure(err)
      case Success(None) => LoadLines(acc, lines[1..], normalize)
      case Success(Some(e)) => LoadLines(Put(acc, e), lines[1..], normalize)
  }

  /** A line that makes the two-name unpacking raise. */
  predicate Malformed(line: string) {
    Text.CountChar(line, '-') >= 2
  }

  /** Line `i` is the first malformed line. */
  predicate FirstMalformedAt(lines: seq<string>, i: int) {
    0 <= i < |lines| && Malformed(lines[i]) && forall j :: 0 <= j < i ==> !Malformed(lines[j])
  }

  predicate AnyMalformed(lines: seq<string>) {
    exists i :: 0 <= i < |lines| && Malformed(lines[i])
  }

  /**
   `load_config()`; `None` stands for a missing config.txt. The load raises exactly when
   some line has more than one dash, and it is the first such line that raises.
   */
  function LoadConfig(file: Option<seq<string>>, normalize: Normalizer): (r: Result<Registry, LoadError>)
    ensures file.None? ==> r == Success([])
    ensures file.Some? ==> (r.Failure? <==> AnyMalformed(file.value))
    ensures r.Failure? ==> file.Some? && exists i :: FirstMalformedAt(file.value, i) && r.error == TooManyValuesToUnpack(file.value[i])
  {
    match file
    case None => Success([])
    case Some(lines) =>
      LoadLinesFailure([], lines, normalize);
      LoadLines([], lines, normalize)
  }

  lemma {:induction false} LoadLinesFailure(acc: Registry, lines: seq<string>, normalize: Normalizer)
    ensures LoadLines(acc, lines, normalize).Failure? <==> AnyMalformed(lines)
    ensures LoadLines(acc, lines, normalize).Failure? ==>
      exists i :: FirstMalformedAt(lines, i) && LoadLines(acc, lines, normalize).error == TooManyValuesToUnpack(lines[i])
    decreases |lines|
  {
    if |lines| > 0 {
      var rest := lines[1..];
      var p := ParseLine(lines[0], normalize);
      if p.Failure? {
        assert FirstMalformedAt(lines, 0);
      } else {
        var acc' := if p.value.Some? then Put(acc, p.value.value) else acc;
        assert LoadLines(acc, lines, normalize) == LoadLines(acc', rest, normalize);
        LoadLinesFailure(acc', rest, normalize);
        MalformedShift(lines);
      }
    }
  }

  /** A first line that is well-formed shifts every malformed position by one. */
  lemma MalformedShift(lines: seq<string>)
    requires |lines| > 0 && !Malformed(lines[0])
    ensures AnyMalformed(lines) <==> AnyMalformed(lines[1..])
    ensures forall i :: FirstMalformedAt(lines[1..], i) ==> FirstMalformedAt(lines, i + 1)
  {
    var rest := lines[1..];
    if AnyMalformed(lines) {
      var i :| 0 <= i < |lines| && Malformed(lines[i]);
      assert rest[i - 1] == lines[i];
    }
    if AnyMalformed(rest) {
      var i :| 0 <= i < |rest| && Malformed(rest[i]);
      assert lines[i + 1] == rest[i];
    }
    forall i | FirstMalformedAt(rest, i)
      ensures FirstMalformedAt(lines, i + 1)
    {
      forall j | 0 <= j < i + 1
        ensures !Malformed(lines[j])
      {
        if j > 0 {
          assert lines[j] == rest[j - 1];
        }
      }
    }
  }

  /** Every entry's Kasa flag agrees with its name. */
  predicate KasaFlagsAgree(r: Registry) {
    forall e :: e in r ==> (e.light.isKasa <==> Text.StartsWith(e.name, '$'))
  }

  /** A completed load has distinct names, and each Kasa flag is the name starting with `$`. */
  lemma {:induction false} LoadLinesWellFormed(acc: Registry, lines: seq<string>, normalize: Normalizer)
    requires UniqueNames(acc) && KasaFlagsAgree(acc)
    requires LoadLines(acc, lines, normalize).Success?
    ensures UniqueNames(LoadLines(acc, lines, normalize).value)
    ensures KasaFlagsAgree(LoadLines(acc, lines, normalize).value)
    decreases |lines|
  {
    if |lines| > 0 {
      var p := ParseLine(lines[0], normalize);
      if p.value.Some? {
        PutUnique(acc, p.value.value);
        LoadLinesWellFormed(Put(acc, p.value.value), lines[1..], normalize);
      } else {
        LoadLinesWellFormed(acc, lines[1..], normalize);
      }
    }
  }

  /** The entry one line defines: none for a skipped line. */
  function LineEntry(line: string, normalize: Normalizer): seq<Entry> {
    match ParseLine(line, normalize)
    case Success(Some(e)) => [e]
    case _ => []
  }

  /** The entries the valid lines define, in file order. */
  function Entries(lines: seq<string>, normalize: Normalizer): seq<Entry>
    decreases |lines|
  {
    if |lines| == 0 then [] else LineEntry(lines[0], normalize) + Entries(lines[1..], normalize)
  }

  /** The dictionary built by assigning `es` in order on top of `acc`. */
  function Build(acc: Registry, es: seq<Entry>): Registry
    decreases |es|
  {
    if |es| == 0 then acc else Build(Put(acc, es[0]), es[1..])
  }

  /** The light that the last entry named `n` assigns: the value a later line leaves in place. */
  function LastLight(es: seq<Entry>, n: string): Option<Light>
    decreases |es|
  {
    if |es| == 0 then None
    else
      match LastLight(es[1..], n)
      case Some(l) => Some(l)
      case None => if es[0].name == n then Some(es[0].light) else None
  }

  /** The distinct elements of `xs`, each where it first occurs. */
  function FirstOccurrences(xs: seq<string>): seq<string>
    decreases |xs|
  {
    if |xs| == 0 then []
    else
      var init := xs[..|xs| - 1];
      if xs[|xs| - 1] in init then FirstOccurrences(init) else FirstOccurrences(init) + [xs[|xs| - 1]]
  }

  /** The loop, when it completes, builds the dictionary of the valid lines' entries. */
  lemma {:induction false} LoadLinesBuilds(acc: Registry, lines: seq<string>, normalize: Normalizer)
    requires LoadLines(acc, lines, normalize).Success?
    ensures LoadLines(acc, lines, normalize).value == Build(acc, Entries(lines, normalize))
    decreases |lines|
  {
    if |lines| > 0 {
      var here := LineEntry(lines[0], normalize);
      LoadLinesStep(acc, lines, normalize);
      LoadLinesBuilds(Build(acc, here), lines[1..], normalize);
      BuildAppend(acc, here, Entries(lines[1..], normalize));
    }
  }

  /** One iteration of the loop over a line that does not raise assigns that line's entry, if any. */
  lemma LoadLinesStep(acc: Registry, lines: seq<string>, normalize: Normalizer)
    requires |lines| > 0 && LoadLines(acc, lines, normalize).Success?
    ensures LoadLines(acc, lines, normalize) == LoadLines(Build(acc, LineEntry(lines[0], normalize)), lines[1..], normalize)
  {
    match ParseLine(lines[0], normalize)
    case Success(Some(e)) =>
      assert Build(acc, [e]) == Build(Put(acc, e), []);
    case Success(None) =>
    case Failure(_) =>
  }

  /** Assigning two runs of entries is assigning the first, then the second. */
  lemma {:induction false} BuildAppend(acc: Registry, a: seq<Entry>, b: seq<Entry>)
    ensures Build(acc, a + b) == Build(Build(acc, a), b)
    decreases |a|
  {
    if |a| == 0 {
      assert a + b == b;
    } else {
      assert (a + b)[0] == a[0] && (a + b)[1..] == a[1..] + b;
      BuildAppend(Put(acc, a[0]), a[1..], b);
    }
  }

  /** A later assignment to a name overwrites an earlier one; untouched names keep their value. */
  lemma {:induction false} BuildGet(acc: Registry, es: seq<Entry>, n: string)
    ensures Get(Build(acc, es), n) == if LastLight(es, n).Some? then LastLight(es, n) else Get(acc, n)
    decreases |es|
  {
    if |es| > 0 {
      BuildGet(Put(acc, es[0]), es[1..], n);
      PutGet(acc, es[0], n);
    }
  }

  /** Assigning keeps the first-insertion order of the keys. */
  lemma {:induction false} BuildOrder(acc: Registry, es: seq<Entry>)
    requires UniqueNames(acc)
    ensures Names(Build(acc, es)) == FirstOccurrences(Names(acc) + Names(es))
    decreases |es|
  {
    if |es| == 0 {
      assert Names(acc) + Names(es) == Names(acc);
      DistinctFirstOccurrences(Names(acc));
    } else {
      var e := es[0];
      var acc' := Put(acc, e);
      BuildOrder(acc', es[1..]);
      assert Names(es) == [e.name] + Names(es[1..]);
      assert Names(acc) + Names(es) == Names(acc) + [e.name] + Names(es[1..]);
      if e.name in Names(acc) {
        RepeatedOccurrence(Names(acc), e.name, Names(es[1..]));
      } else {
        assert Names(acc') == Names(acc) + [e.name];
      }
    }
  }

  lemma {:induction false} DistinctFirstOccurrences(xs: seq<string>)
    requires forall i, j :: 0 <= i < j < |xs| ==> xs[i] != xs[j]
    ensures FirstOccurrences(xs) == xs
    decreases |xs|
  {
    if |xs| > 0 {
      var init := xs[..|xs| - 1];
      DistinctFirstOccurrences(init);
      assert init + [xs[|xs| - 1]] == xs;
    }
  }

  /** A repeat of an element already seen does not change the first occurrences. */
  lemma {:induction false} RepeatedOccurrence(a: seq<string>, x: string, b: seq<string>)
    requires x in a
    ensures FirstOccurrences(a + [x] + b) == FirstOccurrences(a + b)
    decreases |b|
  {
    if |b| == 0 {
      assert a + [x] + b == a + [x];
      assert (a + [x])[..|a|] == a;
      assert a + b == a;
    } else {
      var b' := b[..|b| - 1];
      var y := b[|b| - 1];
      RepeatedOccurrence(a, x, b');
      assert (a + [x] + b)[..|a + [x] + b| - 1] == a + [x] + b';
      assert (a + b)[..|a + b| - 1] == a + b';
      assert (a + [x] + b)[|a + [x] + b| - 1] == y;
      assert (a + b)[|a + b| - 1] == y;
      assert y in a + [x] + b' <==> y in a + b';
    }
  }

  /** After a successful load every name holds the light of the last valid line with that name. */
  lemma LoadedLights(lines: seq<string>, normalize: Normalizer, n: string)
    requires LoadConfig(Some(lines), normalize).Success?
    ensures Get(LoadConfig(Some(lines), normalize).value, n) == LastLight(Entries(lines, normalize), n)
  {
    LoadLinesBuilds([], lines, normalize);
    BuildGet([], Entries(lines, normalize), n);
  }

  /** After a successful load the names come in the order of their first valid line. */
  lemma LoadedOrder(lines: seq<string>, normalize: Normalizer)
    requires LoadConfig(Some(lines), normalize).Success?
    ensures Names(LoadConfig(Some(lines), normalize).value) == FirstOccurrences(Names(Entries(lines, normalize)))
  {
    var es := Entries(lines, normalize);
    LoadLinesBuilds([], lines, normalize);
    BuildOrder([], es);
    assert Names([]) + Names(es) == Names(es);
  }

  /** After a successful load the names are distinct and each Kasa flag is the name starting with `$`. */
  lemma LoadedWellFormed(lines: seq<string>, normalize: Normalizer)
    requires LoadConfig(Some(lines), normalize).Success?
    ensures UniqueNames(LoadConfig(Some(lines), normalize).value)
    ensures KasaFlagsAgree(LoadConfig(Some(lines), normalize).value)
  {
    LoadLinesWellFormed([], lines, normalize);
  }
}

=== FILE: control.dfy ===
/**
 The decision logic behind main.py's routes: mapping a wire command to a Kasa
 action, the Telnet and Kasa dispatch with the re-on quirk of one plug, the
 fan-out to every configured light, the lookup of a light by address, and the
 display names of the index page. Every external call (the `kasa` tool or a
 Telnet session) is answered by the parameter `devices`.
 */
module Control {
  import opened Wrappers
  import Text
  import Config

  /** The servo-angle commands the routes send: "0" turns a light on, "180" off. */
  const OnCommand := "0"
  const OffCommand := "180"

  /** The plug that must not stay off: an `off` to it is followed by an `on`. */
  const QuirkIp := "10.0.0.132"

  datatype KasaAction = On | Off

  function ActionName(a: KasaAction): string {
    match a
    case On => "on"
    case Off => "off"
  }

  /** One external call: `kasa --host ip on|off`, or one Telnet exchange on port 23. */
  datatype Call = KasaCall(ip: string, action: KasaAction) | TelnetCall(ip: string, command: string)

  /** How the world answers a call: the text read back, or the text of the exception raised. */
  datatype Answer = Replied(text: string) | Raised(text: string)

  type Devices = Call -> Answer

  /** The calls one dispatch issued, in order, and the `(success, response)` pair it returned. */
  datatype Sent = Sent(calls: seq<Call>, success: bool, response: string)

  /** Every call was answered without an exception. */
  predicate AllReplied(calls: seq<Call>, devices: Devices) {
    forall k :: 0 <= k < |calls| ==> devices(calls[k]).Replied?
  }

  /** The response of a failed dispatch is the error text of its first failing call. */
  predicate FirstFailureText(s: Sent, devices: Devices) {
    exists k ::
      && 0 <= k < |s.calls|
      && devices(s.calls[k]).Raised?
      && s.response == devices(s.calls[k]).text
      && AllReplied(s.calls[..k], devices)
  }

  /** The Kasa action for a wire command: "0" is on, anything else is off. */
  function KasaActionFor(command: string): (a: KasaAction)
    ensures a == On <==> command == OnCommand
  {
    if command == OnCommand then On else Off
  }

  /**
   `send_kasa_command(ip, action)`. A dispatch succeeds exactly when every call it
   issued succeeded; a successful dispatch leaves the plug in the state of its last
   call, which is `on` for the quirk plug whatever the action.
   */
  function SendKasaCommand(ip: string, action: KasaAction, devices: Devices): (s: Sent)
    ensures 1 <= |s.calls| <= 2 && s.calls[0] == KasaCall(ip, action)
    ensures |s.calls| == 2 <==> action == Off && ip == QuirkIp && devices(KasaCall(ip, Off)).Replied?
    ensures |s.calls| == 2 ==> s.calls[1] == KasaCall(ip, On)
    ensures s.success <==> AllReplied(s.calls, devices)
    ensures s.success ==> s.calls[|s.calls| - 1] == KasaCall(ip, if ip == QuirkIp then On else action)
    ensures s.success ==> s.response == "Kasa device " + ActionName(action) + " successfully"
    ensures !s.success ==> FirstFailureText(s, devices)
  {
    var first := KasaCall(ip, action);
    if devices(first).Raised? then
      var s := Sent([first], false, devices(first).text);
      assert s.calls[..0] == [];
      s
    else if action == Off && ip == QuirkIp then
      var again := KasaCall(ip, On);
      var calls := [first, again];
      assert calls[..1] == [first];
      if devices(again).Raised? then Sent(calls, false, devices(again).text)
      else Sent(calls, true, "Kasa device off successfully")
    else
      Sent([first], true, "Kasa device " + ActionName(action) + " successfully")
  }

  /**
   `send_command(ip, command, is_kasa)`. A Kasa light gets the action the command
   maps to; any other light gets the command over Telnet, and a reply is stripped.
   */
  function SendCommand(ip: string, command: string, isKasa: bool, devices: Devices): (s: Sent)
    ensures |s.calls| >= 1
    ensures s.calls[0] == if isKasa then KasaCall(ip, KasaActionFor(command)) else TelnetCall(ip, command)
    ensures forall c :: c in s.calls ==> c.ip == ip
    ensures s.success <==> AllReplied(s.calls, devices)
    ensures !s.success ==> FirstFailureText(s, devices)
    ensures !isKasa ==> s.calls == [TelnetCall(ip, command)]
    ensures !isKasa && s.success ==> s.response == Text.Strip(devices(TelnetCall(ip, command)).text)
    ensures isKasa ==> s == SendKasaCommand(ip, KasaActionFor(command), devices)
  {
    if isKasa then
      SendKasaCommand(ip, KasaActionFor(command), devices)
    else
      var call := TelnetCall(ip, command);
      match devices(call)
      case Replied(raw) => Sent([call], true, Text.Strip(raw))
      case Raised(err) =>
        var s := Sent([call], false, err);
        assert s.calls[..0] == [];
        s
  }

  /** One line of the fan-out's results: `results[name] = {ip, success, response}`. */
  datatype LightResult = LightResult(name: string, ip: string, sent: Sent)

  /** The result of dispatching `command` to one configured light. */
  function Dispatch(e: Config.Entry, command: string, devices: Devices): LightResult {
    LightResult(e.name, e.light.ip, SendCommand(e.light.ip, command, e.light.isKasa, devices))
  }

  /** `send_command_to_all(command)` over an already loaded registry: every light, in order. */
  function SendCommandToAll(reg: Config.Registry, command: string, devices: Devices): (rs: seq<LightResult>)
    ensures |rs| == |reg|
    ensures forall i :: 0 <= i < |reg| ==> rs[i] == Dispatch(reg[i], command, devices)
    decreases |reg|
  {
    if |reg| == 0 then [] else [Dispatch(reg[0], command, devices)] + SendCommandToAll(reg[1..], command, devices)
  }

  /** The calls a fan-out issues, light after light. */
  function FanOutCalls(rs: seq<LightResult>): seq<Call>
    decreases |rs|
  {
    if |rs| == 0 then [] else rs[0].sent.calls + FanOutCalls(rs[1..])
  }

  /** The names whose dispatch failed, in result order. */
  function FailedNames(rs: seq<LightResult>): (ns: seq<string>)
    ensures |ns| <= |rs|
    ensures forall n :: n in ns <==> exists i :: 0 <= i < |rs| && rs[i].name == n && !rs[i].sent.success
    ensures |ns| == 0 <==> forall i :: 0 <= i < |rs| ==> rs[i].sent.success
    decreases |rs|
  {
    if |rs| == 0 then []
    else
      var rest := FailedNames(rs[1..]);
      assert forall i :: 1 <= i < |rs| ==> rs[i] == rs[1..][i - 1];
      if rs[0].sent.success then rest else [rs[0].name] + rest
  }

  /** The JSON body a route answers with; `ServerError` is the uncaught exception of load_config. */
  datatype Reply = Succeeded(response: Option<string>) | Failed(error: string) | ServerError(cause: Config.LoadError)

  /** What a route replies and the external calls it issued. */
  datatype Handled = Handled(reply: Reply, calls: seq<Call>)

  /**
   `turn_on_all` / `turn_off_all` with `command` and the `verb` of their error message:
   success exactly when every light succeeded (so an empty registry succeeds), else
   an error naming the failed lights in order.
   */
  function TurnAll(loaded: Result<Config.Registry, Config.LoadError>, command: string, verb: string, devices: Devices): (h: Handled)
    ensures loaded.Failure? ==> h == Handled(ServerError(loaded.error), [])
    ensures loaded.Success? ==> h.reply.Succeeded? || h.reply.Failed?
    ensures loaded.Success? ==>
      (h.reply.Succeeded? <==> forall i :: 0 <= i < |loaded.value| ==> Dispatch(loaded.value[i], command, devices).sent.success)
    ensures h.reply.Succeeded? ==> h.reply.response.None?
    ensures loaded.Success? && h.reply.Failed? ==>
      h.reply.error == "Failed to turn " + verb + ": " + Text.Join(FailedNames(SendCommandToAll(loaded.value, command, devices)), ", ")
    ensures loaded.Success? ==> h.calls == FanOutCalls(SendCommandToAll(loaded.value, command, devices))
  {
    match loaded
    case Failure(err) => Handled(ServerError(err), [])
    case Success(reg) =>
      var rs := SendCommandToAll(reg, command, devices);
      var failed := FailedNames(rs);
      if |failed| == 0 then Handled(Succeeded(None), FanOutCalls(rs))
      else Handled(Failed("Failed to turn " + verb + ": " + Text.Join(failed, ", ")), FanOutCalls(rs))
  }

  /** `POST /on_all`. */
  function TurnOnAll(loaded: Result<Config.Registry, Config.LoadError>, devices: Devices): (h: Handled)
    ensures loaded.Failure? ==> h == Handled(ServerError(loaded.error), [])
    ensures loaded.Success? ==> h.calls == FanOutCalls(SendCommandToAll(loaded.value, OnCommand, devices))
    ensures loaded.Success? ==>
      (h.reply.Succeeded? <==> forall i :: 0 <= i < |loaded.value| ==> Dispatch(loaded.value[i], OnCommand, devices).sent.success)
    ensures loaded.Success? && h.reply.Failed? ==>
      h.reply.error == "Failed to turn on: " + Text.Join(FailedNames(SendCommandToAll(loaded.value, OnCommand, devices)), ", ")
  {
    assert "Failed to turn " + "on" + ": " == "Failed to turn on: ";
    TurnAll(loaded, OnCommand, "on", devices)
  }

  /** `POST /off_all`. */
  function TurnOffAll(loaded: Result<Config.Registry, Config.LoadError>, devices: Devices): (h: Handled)
    ensures loaded.Failure? ==> h == Handled(ServerError(loaded.error), [])
    ensures loaded.Success? ==> h.calls == FanOutCalls(SendCommandToAll(loaded.value, OffCommand, devices))
    ensures loaded.Success? ==>
      (h.reply.Succeeded? <==> forall i :: 0 <= i < |loaded.value| ==> Dispatch(loaded.value[i], OffCommand, devices).sent.success)
    ensures loaded.Success? && h.reply.Failed? ==>
      h.reply.error == "Failed to turn off: " + Text.Join(FailedNames(SendCommandToAll(loaded.value, OffCommand, devices)), ", ")
  {
    assert "Failed to turn " + "off" + ": " == "Failed to turn off: ";
    TurnAll(loaded, OffCommand, "off", devices)
  }

  /** The `is_kasa` flag of the first configured light whose address is `ip`. */
  function FindKasaFlag(reg: Config.Registry, ip: string): (r: Option<bool>)
    ensures r.None? <==> forall i :: 0 <= i < |reg| ==> reg[i].light.ip != ip
    ensures r.Some? ==> exists i ::
      && 0 <= i < |reg|
      && reg[i].light.ip == ip
      && r.value == reg[i].light.isKasa
      && forall j :: 0 <= j < i ==> reg[j].light.ip != ip
    decreases |reg|
  {
    if |reg| == 0 then None
    else if reg[0].light.ip == ip then Some(reg[0].light.isKasa)
    else
      var r := FindKasaFlag(reg[1..], ip);
      assert forall i :: 1 <= i < |reg| ==> reg[i] == reg[1..][i - 1];
      if r.Some? then
        var i :| 0 <= i < |reg[1..]| && reg[1..][i].light.ip == ip && r.value == reg[1..][i].light.isKasa
          && forall j :: 0 <= j < i ==> reg[1..][j].light.ip != ip;
        assert forall j :: 0 <= j < i + 1 ==> reg[j].light.ip != ip by {
          forall j | 0 <= j < i + 1
            ensures reg[j].light.ip != ip
          {
            if j > 0 {
              assert reg[j] == reg[1..][j - 1];
            }
          }
        }
        assert reg[i + 1] == reg[1..][i];
        r
      else
        r
  }

  /** `turn_on(ip)` / `turn_off(ip)` with the route's `command`. */
  function Toggle(loaded: Result<Config.Registry, Config.LoadError>, ip: string, command: string, devices: Devices): (h: Handled)
    ensures loaded.Failure? ==> h == Handled(ServerError(loaded.error), [])
    ensures loaded.Success? && FindKasaFlag(loaded.value, ip).None? ==> h == Handled(Failed("IP address not found"), [])
    ensures loaded.Success? ==> h.reply.Succeeded? || h.reply.Failed?
    ensures loaded.Success? && FindKasaFlag(loaded.value, ip).Some? ==>
      var s := SendCommand(ip, command, FindKasaFlag(loaded.value, ip).value, devices);
      && h.calls == s.calls
      && (h.reply.Succeeded? <==> s.success)
      && (h.reply.Succeeded? ==> h.reply.response == Some(s.response))
      && (h.reply.Failed? ==> h.reply.error == s.response)
  {
    match loaded
    case Failure(err) => Handled(ServerError(err), [])
    case Success(reg) =>
      match FindKasaFlag(reg, ip)
      case None => Handled(Failed("IP address not found"), [])
      case Some(isKasa) =>
        var s := SendCommand(ip, command, isKasa, devices);
        if s.success then Handled(Succeeded(Some(s.response)), s.calls)
        else Handled(Failed(s.response), s.calls)
  }

  /** `POST /on/<ip>`. */
  function TurnOn(loaded: Result<Config.Registry, Config.LoadError>, ip: string, devices: Devices): (h: Handled)
    ensures loaded.Success? && FindKasaFlag(loaded.value, ip).None? ==> h == Handled(Failed("IP address not found"), [])
    ensures loaded.Success? && FindKasaFlag(loaded.value, ip).Some? ==>
      |h.calls| >= 1 && h.calls[0] == (if FindKasaFlag(loaded.value, ip).value then KasaCall(ip, On) else TelnetCall(ip, OnCommand))
  {
    Toggle(loaded, ip, OnCommand, devices)
  }

  /** `POST /off/<ip>`. */
  function TurnOff(loaded: Result<Config.Registry, Config.LoadError>, ip: string, devices: Devices): (h: Handled)
    ensures loaded.Success? && FindKasaFlag(loaded.value, ip).None? ==> h == Handled(Failed("IP address not found"), [])
    ensures loaded.Success? && FindKasaFlag(loaded.value, ip).Some? ==>
      |h.calls| >= 1 && h.calls[0] == (if FindKasaFlag(loaded.value, ip).value then KasaCall(ip, Off) else TelnetCall(ip, OffCommand))
  {
    Toggle(loaded, ip, OffCommand, devices)
  }

  /** One light's block on the index page: the title shown and the address its buttons post to. */
  datatype Button = Button(title: string, ip: string)

  /** The index page's lights: each name without its leading `$` marks, in registry order. */
  function Buttons(reg: Config.Registry): (bs: seq<Button>)
    ensures |bs| == |reg|
    ensures forall i :: 0 <= i < |reg| ==> bs[i].ip == reg[i].light.ip
    ensures forall i :: 0 <= i < |reg| ==> !Text.StartsWith(bs[i].title, '$')
    ensures forall i :: 0 <= i < |reg| ==>
      |bs[i].title| <= |reg[i].name| && reg[i].name == Dollars(|reg[i].name| - |bs[i].title|) + bs[i].title
  {
    seq(|reg|, i requires 0 <= i < |reg| => Button(Text.TrimStartChar(reg[i].name, '$'), reg[i].light.ip))
  }

  /** A run of `n` dollar signs. */
  function Dollars(n: nat): (s: string)
    ensures |s| == n && forall k :: 0 <= k < n ==> s[k] == '$'
  {
    seq(n, _ => '$')
  }

  /** A fan-out to an empty registry succeeds without issuing a call. */
  lemma EmptyFanOutSucceeds(command: string, verb: string, devices: Devices)
    ensures TurnAll(Success([]), command, verb, devices) == Handled(Succeeded(None), [])
  {
  }

  /** The fan-out answers once per configured light, under the light's name, in registry order. */
  lemma FanOutFollowsRegistry(reg: Config.Registry, command: string, devices: Devices)
    ensures var rs := SendCommandToAll(reg, command, devices);
      |rs| == |reg| && forall i :: 0 <= i < |rs| ==> rs[i].name == Config.Names(reg)[i] && rs[i].ip == reg[i].light.ip
  {
  }

  /** The failed names of consecutive results are the failed names of each part, one after the other. */
  lemma {:induction false} FailedNamesAppend(a: seq<LightResult>, b: seq<LightResult>)
    ensures FailedNames(a + b) == FailedNames(a) + FailedNames(b)
    decreases |a|
  {
    if |a| == 0 {
      assert a + b == b;
    } else {
      assert (a + b)[0] == a[0];
      assert (a + b)[1..] == a[1..] + b;
      FailedNamesAppend(a[1..], b);
    }
  }

  /** A Telnet light switched from its route gets exactly one call, carrying "0" or "180", and a success answers with the stripped reply. */
  lemma RoutesSendTheirCommand(reg: Config.Registry, ip: string, devices: Devices)
    requires FindKasaFlag(reg, ip) == Some(false)
    ensures TurnOn(Success(reg), ip, devices).calls == [TelnetCall(ip, OnCommand)]
    ensures TurnOff(Success(reg), ip, devices).calls == [TelnetCall(ip, OffCommand)]
    ensures TurnOn(Success(reg), ip, devices).reply.Succeeded? ==>
      TurnOn(Success(reg), ip, devices).reply.response == Some(Text.Strip(devices(TelnetCall(ip, OnCommand)).text))
    ensures TurnOff(Success(reg), ip, devices).reply.Succeeded? ==>
      TurnOff(Success(reg), ip, devices).reply.response == Some(Text.Strip(devices(TelnetCall(ip, OffCommand)).text))
  {
  }

  /** A Kasa light switched on from its route gets the Kasa dispatch's calls and answers with the Kasa success text. */
  lemma KasaRouteOn(reg: Config.Registry, ip: string, devices: Devices)
    requires FindKasaFlag(reg, ip) == Some(true)
    ensures TurnOn(Success(reg), ip, devices).calls == SendKasaCommand(ip, On, devices).calls
    ensures TurnOn(Success(reg), ip, devices).reply.Succeeded? ==>
      TurnOn(Success(reg), ip, devices).reply.response == Some("Kasa device on successfully")
  {
    assert SendCommand(ip, OnCommand, true, devices) == SendKasaCommand(ip, On, devices);
    assert "Kasa device " + ActionName(On) + " successfully" == "Kasa device on successfully";
  }

  /** A Kasa light switched off from its route gets the Kasa dispatch's calls, the quirk plug's re-on included. */
  lemma KasaRouteOff(reg: Config.Registry, ip: string, devices: Devices)
    requires FindKasaFlag(reg, ip) == Some(true)
    ensures TurnOff(Success(reg), ip, devices).calls == SendKasaCommand(ip, Off, devices).calls
    ensures TurnOff(Success(reg), ip, devices).reply.Succeeded? ==>
      TurnOff(Success(reg), ip, devices).reply.response == Some("Kasa device off successfully")
  {
    assert SendCommand(ip, OffCommand, true, devices) == SendKasaCommand(ip, Off, devices);
    assert "Kasa device " + ActionName(Off) + " successfully" == "Kasa device off successfully";
  }

  /** A successful OFF to the quirk plug leaves it on: its last call is `kasa ... on`. */
  lemma QuirkPlugEndsOn(reg: Config.Registry, devices: Devices)
    requires FindKasaFlag(reg, QuirkIp) == Some(true)
    requires TurnOff(Success(reg), QuirkIp, devices).reply.Succeeded?
    ensures var calls := TurnOff(Success(reg), QuirkIp, devices).calls;
      calls == [KasaCall(QuirkIp, Off), KasaCall(QuirkIp, On)]
  {
  }
}

=== FILE: ota.dfy ===
/**
 auto-update/auto-update.py: compile the selected firmware sketches, read the
 device list, and push the matching binary over the air to every selected device
 that answers a ping. The external programs (arduino-cli, ping, espota.py) are the
 return-code oracles of an `Env`.
 */
module Ota {
  import opened Wrappers
  import Text

  /** The `--light-type` choices. */
  datatype LightType = Flat | Rocker

  /** The command-line spelling of a light type. */
  function ChoiceName(t: LightType): (name: string)
    ensures Text.Lower(name) == name
  {
    match t
    case Flat => "flat"
    case Rocker => "rocker"
  }

  /** The device-type spelling the binary table is keyed by. */
  function KindName(t: LightType): (name: string)
    ensures Text.Lower(name) == ChoiceName(t) && name != ChoiceName(t)
  {
    match t
    case Flat => "Flat"
    case Rocker => "Rocker"
  }

  /** The parsed command line: `--light-type`, `--location`, `--skip-compile`. */
  datatype Args = Args(lightType: Option<LightType>, location: Option<string>, skipCompile: bool)

  const FlatSketch := "flat-light/flat-light.ino"
  const RockerSketch := "rocker-light/rocker-light.ino"
  const MaxAttempts := 5

  function SketchFor(t: LightType): string {
    match t
    case Flat => FlatSketch
    case Rocker => RockerSketch
  }

  /** The `binaries` table: binary path by device type, matched exactly. */
  function Binary(kind: string): (b: Option<string>)
    ensures b.Some? <==> exists t :: kind == KindName(t)
  {
    if kind == "Flat" then (assert kind == KindName(Flat); Some("binaries/flat-light.ino.bin"))
    else if kind == "Rocker" then (assert kind == KindName(Rocker); Some("binaries/rocker-light.ino.bin"))
    else (assert forall t :: kind != KindName(t); None)
  }

  /** The `--light-type` filter admits type `t`. */
  predicate TypeAdmitted(args: Args, t: LightType) {
    args.lightType.None? || args.lightType.value == t
  }

  /** The sketches compiled before any update, in order. */
  function SketchesToCompile(args: Args): (sketches: seq<string>)
    ensures forall t :: SketchFor(t) in sketches <==> !args.skipCompile && TypeAdmitted(args, t)
    ensures forall s :: s in sketches ==> exists t :: s == SketchFor(t)
    ensures |sketches| == 2 ==> sketches[0] == FlatSketch
    ensures forall i, j :: 0 <= i < j < |sketches| ==> sketches[i] != sketches[j]
  {
    if args.skipCompile then []
    else match args.lightType
      case Some(t) => [SketchFor(t)]
      case None =>
        assert FlatSketch == SketchFor(Flat) && RockerSketch == SketchFor(Rocker);
        [FlatSketch, RockerSketch]
  }

  /** One entry of the device list: `location - ip - type`. */
  datatype Device = Device(location: string, ip: string, kind: string)

  const Separator := " - "

  /** A line of the device list: strip it, split on " - ", and keep it when there are exactly three fields. */
  function ParseDevice(line: string): (d: Option<Device>)
    ensures d.Some? <==> |Text.Split(Text.Strip(line), Separator)| == 3
    ensures d.Some? ==> Text.Join([d.value.location, d.value.ip, d.value.kind], Separator) == Text.Strip(line)
    ensures d.Some? ==> !Text.Contains(d.value.location, Separator) && !Text.Contains(d.value.ip, Separator)
                        && !Text.Contains(d.value.kind, Separator)
    ensures d.Some? ==> Text.CutsLeftmost([d.value.location, d.value.ip, d.value.kind], Separator)
  {
    var parts := Text.Split(Text.Strip(line), Separator);
    if |parts| == 3 then
      ThreeFields(Text.Strip(line));
      Some(Device(parts[0], parts[1], parts[2]))
    else
      None
  }

  /** Three fields split on " - " are free of it and join back to the text. */
  lemma ThreeFields(s: string)
    requires |Text.Split(s, Separator)| == 3
    ensures var parts := Text.Split(s, Separator);
      && Text.Join([parts[0], parts[1], parts[2]], Separator) == s
      && !Text.Contains(parts[0], Separator) && !Text.Contains(parts[1], Separator) && !Text.Contains(parts[2], Separator)
      && Text.CutsLeftmost([parts[0], parts[1], parts[2]], Separator)
  {
    var parts := Text.Split(s, Separator);
    Text.JoinSplit(s, Separator);
    Text.SplitPiecesFree(s, Separator);
    Text.SplitLeftmost(s, Separator);
    assert parts == [parts[0], parts[1], parts[2]];
    assert parts[0] in parts && parts[1] in parts && parts[2] in parts;
  }

  /**
   The fields a line gives are the only ones that join back to the stripped line, cut at the
   leftmost " - " each time, and leave no " - " in the type.
   */
  lemma ParseDeviceFields(line: string, d: Device)
    requires Text.Join([d.location, d.ip, d.kind], Separator) == Text.Strip(line)
    requires Text.CutsLeftmost([d.location, d.ip, d.kind], Separator) && !Text.Contains(d.kind, Separator)
    ensures ParseDevice(line) == Some(d)
  {
    Text.SplitUnique(Text.Strip(line), Separator, [d.location, d.ip, d.kind]);
  }

  /** Overlapping separators: "x - - y - z" is cut at its first " - ", as Python's `split` does. */
  lemma OverlappingSeparators()
    ensures ParseDevice("x - - y - z") == Some(Device("x", "- y", "z"))
  {
    var line := "x - - y - z";
    Text.StripUntrimmed(line);
    ExampleJoin();
    ExampleCuts();
    ExampleLastFree();
    ParseDeviceFields(line, Device("x", "- y", "z"));
  }

  lemma ExampleJoin()
    ensures Text.Join(["x", "- y", "z"], Separator) == "x - - y - z"
  {
    Text.JoinCons("x", ["- y", "z"], Separator);
    Text.JoinCons("- y", ["z"], Separator);
  }

  lemma ExampleCuts()
    ensures Text.CutsLeftmost(["x", "- y", "z"], Separator)
  {
    ExampleFirstCut();
    ExampleMiddleCut();
  }

  lemma ExampleFirstCut()
    ensures Text.FindFrom("x" + Separator, Separator, 0) == Some(1)
  {
    var first := "x" + Separator;
    assert Separator[0] == ' ' && first[0..3][0] == 'x';
    Text.FindFromExact(first, Separator, 1);
  }

  lemma ExampleMiddleCut()
    ensures Text.FindFrom("- y" + Separator, Separator, 0) == Some(3)
  {
    var mid := "- y" + Separator;
    assert Separator[0] == ' ' && Separator[1] == '-';
    assert mid[0..3][0] == '-' && mid[1..4][1] == 'y' && mid[2..5][0] == 'y';
    Text.FindFromExact(mid, Separator, 3);
  }

  lemma ExampleLastFree()
    ensures !Text.Contains("z", Separator)
  {
  }

  /** The devices present in a sequence of parsed lines, in order. */
  function Present(xs: seq<Option<Device>>): (ys: seq<Device>)
    ensures |ys| <= |xs|
    ensures forall y :: y in ys <==> Some(y) in xs
  {
    if |xs| == 0 then []
    else match xs[0]
      case Some(y) => [y] + Present(xs[1..])
      case None => Present(xs[1..])
  }

  lemma {:induction false} PresentAppend(a: seq<Option<Device>>, b: seq<Option<Device>>)
    ensures Present(a + b) == Present(a) + Present(b)
    decreases |a|
  {
    if |a| == 0 {
      assert a + b == b;
    } else {
      assert (a + b)[1..] == a[1..] + b;
      PresentAppend(a[1..], b);
    }
  }

  /** Each line of the file, parsed. */
  function ParsedLines(lines: seq<string>): (parsed: seq<Option<Device>>)
    ensures |parsed| == |lines|
    ensures forall i :: 0 <= i < |lines| ==> parsed[i] == ParseDevice(lines[i])
  {
    seq(|lines|, i requires 0 <= i < |lines| => ParseDevice(lines[i]))
  }

  /** The device list: the device of every line with three fields, in file order. */
  function ParseDevices(lines: seq<string>): (ds: seq<Device>)
    ensures |ds| <= |lines|
    ensures forall d :: d in ds <==> Some(d) in ParsedLines(lines)
  {
    Present(ParsedLines(lines))
  }

  /** Every line with three fields contributes its device to the list. */
  lemma ParseDevicesComplete(lines: seq<string>, i: nat)
    requires i < |lines| && ParseDevice(lines[i]).Some?
    ensures ParseDevice(lines[i]).value in ParseDevices(lines)
  {
    assert ParsedLines(lines)[i] == Some(ParseDevice(lines[i]).value);
  }

  /** Every device of the list is the device of some line. */
  lemma ParseDevicesSound(lines: seq<string>)
    ensures forall d :: d in ParseDevices(lines) ==> exists i :: 0 <= i < |lines| && ParseDevice(lines[i]) == Some(d)
  {
    var parsed := ParsedLines(lines);
    forall d | d in ParseDevices(lines)
      ensures exists i :: 0 <= i < |lines| && ParseDevice(lines[i]) == Some(d)
    {
      var i :| 0 <= i < |parsed| && parsed[i] == Some(d);
    }
  }

  /** One line of the list gives its device, or nothing when it does not have three fields. */
  lemma ParseDevicesSingle(line: string)
    ensures ParseDevice(line).Some? ==> ParseDevices([line]) == [ParseDevice(line).value]
    ensures ParseDevice(line).None? ==> ParseDevices([line]) == []
  {
    assert ParsedLines([line]) == [ParseDevice(line)];
  }

  /** Reading the device list in two parts gives the devices of the first part, then those of the second. */
  lemma ParseDevicesAppend(a: seq<string>, b: seq<string>)
    ensures ParseDevices(a + b) == ParseDevices(a) + ParseDevices(b)
  {
    assert ParsedLines(a + b) == ParsedLines(a) + ParsedLines(b);
    PresentAppend(ParsedLines(a), ParsedLines(b));
  }

  /** The `--light-type` filter keeps the device: its type equals the choice ignoring case. */
  predicate TypeMatches(args: Args, d: Device) {
    args.lightType.None? || Text.Lower(d.kind) == ChoiceName(args.lightType.value)
  }

  /** The `--location` filter keeps the device; an empty `--location` filters nothing. */
  predicate LocationMatches(args: Args, d: Device) {
    args.location.None? || args.location.value == "" || Text.Lower(args.location.value) == Text.Lower(d.location)
  }

  /** What the update loop decides for one device before contacting it. */
  datatype Verdict = WrongType | WrongLocation | NoBinary | Candidate(binary: string)

  function Select(d: Device, args: Args): (v: Verdict)
    ensures v == WrongType <==> !TypeMatches(args, d)
    ensures v == WrongLocation <==> TypeMatches(args, d) && !LocationMatches(args, d)
    ensures v == NoBinary <==> TypeMatches(args, d) && LocationMatches(args, d) && Binary(d.kind).None?
    ensures v.Candidate? ==> Binary(d.kind) == Some(v.binary)
  {
    if !TypeMatches(args, d) then WrongType
    else if !LocationMatches(args, d) then WrongLocation
    else match Binary(d.kind)
      case Some(b) => Candidate(b)
      case None => NoBinary
  }

  /** A device the update loop contacts has a compiled sketch behind its binary, unless compiling was skipped. */
  lemma CandidateIsCompiled(args: Args, d: Device)
    requires Select(d, args).Candidate? && !args.skipCompile
    ensures exists t :: SketchFor(t) in SketchesToCompile(args) && Binary(KindName(t)) == Some(Select(d, args).binary)
  {
    var t :| d.kind == KindName(t);
    assert Text.Lower(d.kind) == ChoiceName(t);
    if args.lightType.Some? {
      var u := args.lightType.value;
      assert ChoiceName(u) == ChoiceName(t);
    }
    assert TypeAdmitted(args, t);
  }

  /** A device listed as "flat" passes the type filter but has no binary, so it is never updated. */
  lemma LowercaseKindHasNoBinary(args: Args, d: Device)
    requires d.kind == "flat" && args.lightType == Some(Flat) && LocationMatches(args, d)
    ensures Select(d, args) == NoBinary
  {
    assert Text.Lower(d.kind) == "flat";
    assert forall t :: d.kind != KindName(t);
  }

  /** The filters ignore case: lower-casing a device's type and location does not change whether it is selected. */
  lemma FiltersIgnoreCase(args: Args, d: Device)
    ensures TypeMatches(args, d.(kind := Text.Lower(d.kind))) == TypeMatches(args, d)
    ensures LocationMatches(args, d.(location := Text.Lower(d.location))) == LocationMatches(args, d)
  {
    LowerIdempotent(d.kind);
    LowerIdempotent(d.location);
  }

  lemma LowerIdempotent(s: string)
    ensures Text.Lower(Text.Lower(s)) == Text.Lower(s)
  {
    forall k | 0 <= k < |s|
      ensures Text.Lower(Text.Lower(s))[k] == Text.Lower(s)[k]
    {
      Text.LowerCharKeepsClass(s[k]);
    }
  }

  /** The external programs, by their exit codes: `arduino-cli compile`, one `ping` attempt, `espota.py`. */
  datatype Env = Env(compile: string -> int, ping: (string, nat) -> int, ota: (string, string) -> int)

  /** What the script asks of the outside world, in order. */
  datatype Action = Compile(sketch: string) | Ping(ip: string, attempt: nat) | Upload(ip: string, binary: string)

  /** How the compile step ended: every sketch built, or the exit code of the first that failed. */
  datatype Compiled = Compiled(actions: seq<Action>, failure: Option<int>)

  /** `compile_sketch` over the selected sketches; the first failure ends the script. */
  function CompileAll(sketches: seq<string>, compile: string -> int): (r: Compiled)
    ensures r.failure.None? <==> forall i :: 0 <= i < |sketches| ==> compile(sketches[i]) == 0
    ensures r.failure.None? ==> r.actions == seq(|sketches|, i requires 0 <= i < |sketches| => Compile(sketches[i]))
    ensures r.failure.Some? ==> exists i :: FirstFailedAt(sketches, compile, i) && r.failure.value == compile(sketches[i])
                                            && r.actions == seq(i + 1, j requires 0 <= j <= i => Compile(sketches[j]))
    ensures forall a :: a in r.actions ==> a.Compile?
  {
    if |sketches| == 0 then Compiled([], None)
    else
      var code := compile(sketches[0]);
      if code != 0 then
        assert FirstFailedAt(sketches, compile, 0);
        Compiled([Compile(sketches[0])], Some(code))
      else
        var rest := CompileAll(sketches[1..], compile);
        CompileShift(sketches, compile, rest);
        Compiled([Compile(sketches[0])] + rest.actions, rest.failure)
  }

  /** `sketches[i]` is the first sketch whose compilation fails. */
  predicate FirstFailedAt(sketches: seq<string>, compile: string -> int, i: int) {
    0 <= i < |sketches| && compile(sketches[i]) != 0 && forall j :: 0 <= j < i ==> compile(sketches[j]) == 0
  }

  lemma CompileShift(sketches: seq<string>, compile: string -> int, rest: Compiled)
    requires |sketches| > 0 && compile(sketches[0]) == 0
    requires rest.failure.None? <==> forall i :: 0 <= i < |sketches| - 1 ==> compile(sketches[1..][i]) == 0
    requires rest.failure.None? ==> rest.actions == seq(|sketches| - 1, i requires 0 <= i < |sketches| - 1 => Compile(sketches[1..][i]))
    requires rest.failure.Some? ==> exists i :: FirstFailedAt(sketches[1..], compile, i) && rest.failure.value == compile(sketches[1..][i])
                                               && rest.actions == seq(i + 1, j requires 0 <= j <= i => Compile(sketches[1..][j]))
    ensures rest.failure.None? <==> forall i :: 0 <= i < |sketches| ==> compile(sketches[i]) == 0
    ensures rest.failure.None? ==> [Compile(sketches[0])] + rest.actions == seq(|sketches|, i requires 0 <= i < |sketches| => Compile(sketches[i]))
    ensures rest.failure.Some? ==> exists i :: FirstFailedAt(sketches, compile, i) && rest.failure.value == compile(sketches[i])
                                               && [Compile(sketches[0])] + rest.actions == seq(i + 1, j requires 0 <= j <= i => Compile(sketches[j]))
  {
    if rest.failure.None? {
      CompiledAll(sketches, compile, rest.actions);
    } else {
      var i :| FirstFailedAt(sketches[1..], compile, i) && rest.failure.value == compile(sketches[1..][i])
               && rest.actions == seq(i + 1, j requires 0 <= j <= i => Compile(sketches[1..][j]));
      FailedLater(sketches, compile, i, rest.actions);
    }
  }

  lemma CompiledAll(sketches: seq<string>, compile: string -> int, actions: seq<Action>)
    requires |sketches| > 0 && compile(sketches[0]) == 0
    requires forall i :: 0 <= i < |sketches| - 1 ==> compile(sketches[1..][i]) == 0
    requires actions == seq(|sketches| - 1, i requires 0 <= i < |sketches| - 1 => Compile(sketches[1..][i]))
    ensures forall i :: 0 <= i < |sketches| ==> compile(sketches[i]) == 0
    ensures [Compile(sketches[0])] + actions == seq(|sketches|, i requires 0 <= i < |sketches| => Compile(sketches[i]))
  {
    forall i | 0 < i < |sketches|
      ensures compile(sketches[i]) == 0
    {
      assert sketches[1..][i - 1] == sketches[i];
    }
  }

  lemma FailedLater(sketches: seq<string>, compile: string -> int, i: nat, actions: seq<Action>)
    requires |sketches| > 0 && compile(sketches[0]) == 0
    requires FirstFailedAt(sketches[1..], compile, i)
    requires actions == seq(i + 1, j requires 0 <= j <= i => Compile(sketches[1..][j]))
    ensures FirstFailedAt(sketches, compile, i + 1) && compile(sketches[1..][i]) == compile(sketches[i + 1])
    ensures [Compile(sketches[0])] + actions == seq(i + 2, j requires 0 <= j <= i + 1 => Compile(sketches[j]))
  {
    forall j | 0 <= j < i + 1
      ensures compile(sketches[j]) == 0
    {
      if j > 0 {
        assert sketches[1..][j - 1] == sketches[j];
      }
    }
  }

  /** How `ping_device` ended, and how many pings it sent. */
  datatype PingResult = PingResult(reachable: bool, pings: nat)

  /** The attempts `range(max_attempts)` yields: none for a negative count. */
  function Attempts(maxAttempts: int): (n: nat)
    ensures n as int == maxAttempts || (maxAttempts < 0 && n == 0)
  {
    if maxAttempts < 0 then 0 else maxAttempts
  }

  /** The ping attempts from `k` up to `n`, stopping at the first that succeeds. */
  function PingFrom(ip: string, k: nat, n: nat, ping: (string, nat) -> int): (r: PingResult)
    requires k <= n
    ensures k <= r.pings <= n
    ensures r.reachable <==> exists j :: k <= j < n && ping(ip, j) == 0
    ensures r.reachable ==> r.pings > k && ping(ip, r.pings - 1) == 0
    ensures !r.reachable ==> r.pings == n
    ensures forall j :: k <= j < r.pings && (j < r.pings - 1 || !r.reachable) ==> ping(ip, j) != 0
    decreases n - k
  {
    if k == n then PingResult(false, n)
    else if ping(ip, k) == 0 then PingResult(true, k + 1)
    else PingFrom(ip, k + 1, n, ping)
  }

  /** `ping_device(ip, max_attempts)`: reachable as soon as one attempt answers. */
  function PingDevice(ip: string, maxAttempts: int, ping: (string, nat) -> int): (r: PingResult)
    ensures r.reachable <==> exists j :: 0 <= j < maxAttempts && ping(ip, j) == 0
    ensures r.pings <= Attempts(maxAttempts)
    ensures r.reachable ==> r.pings > 0 && ping(ip, r.pings - 1) == 0
    ensures forall j :: 0 <= j < r.pings - 1 ==> ping(ip, j) != 0
    ensures !r.reachable ==> r.pings == Attempts(maxAttempts)
  {
    PingFrom(ip, 0, Attempts(maxAttempts), ping)
  }

  /** The pings `ping_device` sends: attempts `0 .. count - 1`. */
  function PingActions(ip: string, count: nat): (acts: seq<Action>)
    ensures |acts| == count
    ensures forall j :: 0 <= j < count ==> acts[j] == Ping(ip, j)
  {
    seq(count, j requires 0 <= j < count => Ping(ip, j))
  }

  /** What the update loop reports for one device. */
  datatype Report = SkippedType | SkippedLocation | NoBinaryFound | Unreachable | Updated | UpdateFailed(code: int)

  /** The loop's actions for one device and what it reported. */
  datatype Step = Step(actions: seq<Action>, report: Report)

  /** One iteration of the update loop. */
  function UpdateDevice(d: Device, args: Args, env: Env): (s: Step)
    ensures !Select(d, args).Candidate? ==> s.actions == []
    ensures s.report == SkippedType <==> Select(d, args) == WrongType
    ensures s.report == SkippedLocation <==> Select(d, args) == WrongLocation
    ensures s.report == NoBinaryFound <==> Select(d, args) == NoBinary
    ensures s.report == Unreachable <==> Select(d, args).Candidate? && !PingDevice(d.ip, MaxAttempts, env.ping).reachable
    ensures |s.actions| <= MaxAttempts + 1
  {
    match Select(d, args)
    case WrongType => Step([], SkippedType)
    case WrongLocation => Step([], SkippedLocation)
    case NoBinary => Step([], NoBinaryFound)
    case Candidate(binary) =>
      var p := PingDevice(d.ip, MaxAttempts, env.ping);
      var pings := PingActions(d.ip, p.pings);
      if p.reachable then
        var code := env.ota(d.ip, binary);
        Step(pings + [Upload(d.ip, binary)], if code == 0 then Updated else UpdateFailed(code))
      else
        Step(pings, Unreachable)
  }

  /** A selected device is pinged from attempt 0 up to the first answer, then sent its binary when it answered. */
  lemma UpdateDeviceContact(d: Device, args: Args, env: Env)
    requires Select(d, args).Candidate?
    ensures var s := UpdateDevice(d, args, env);
            var p := PingDevice(d.ip, MaxAttempts, env.ping);
            && |s.actions| == p.pings + (if p.reachable then 1 else 0)
            && s.actions[..p.pings] == PingActions(d.ip, p.pings)
            && (p.reachable ==> s.actions[p.pings] == Upload(d.ip, Select(d, args).binary))
  {
    var p := PingDevice(d.ip, MaxAttempts, env.ping);
    var b := Select(d, args).binary;
    var s := UpdateDevice(d, args, env);
    if p.reachable {
      assert s.actions == PingActions(d.ip, p.pings) + [Upload(d.ip, b)];
      UploadsAmongPings(d.ip, p.pings, b);
    } else {
      assert s.actions == PingActions(d.ip, p.pings);
    }
  }

  /** The binary of a device is uploaded exactly when the device was selected and answered a ping. */
  lemma UpdateDeviceUploads(d: Device, args: Args, env: Env)
    ensures forall b :: Upload(d.ip, b) in UpdateDevice(d, args, env).actions <==>
              Select(d, args) == Candidate(b) && PingDevice(d.ip, MaxAttempts, env.ping).reachable
  {
    if Select(d, args).Candidate? {
      var p := PingDevice(d.ip, MaxAttempts, env.ping);
      UploadsAmongPings(d.ip, p.pings, Select(d, args).binary);
    }
  }

  /** A device that was sent its binary is reported updated exactly when `espota.py` exits with 0, else with that code. */
  lemma UpdateDeviceReport(d: Device, args: Args, env: Env)
    ensures var s := UpdateDevice(d, args, env);
            && (s.report == Updated <==>
                  Select(d, args).Candidate? && PingDevice(d.ip, MaxAttempts, env.ping).reachable
                  && env.ota(d.ip, Select(d, args).binary) == 0)
            && (s.report.UpdateFailed? <==>
                  Select(d, args).Candidate? && PingDevice(d.ip, MaxAttempts, env.ping).reachable
                  && env.ota(d.ip, Select(d, args).binary) != 0)
            && (s.report.UpdateFailed? ==> s.report.code == env.ota(d.ip, Select(d, args).binary))
  {
  }

  /** Pings carry no upload; a single upload after them is the only one. */
  lemma UploadsAmongPings(ip: string, n: nat, binary: string)
    ensures forall b :: Upload(ip, b) !in PingActions(ip, n)
    ensures forall b :: Upload(ip, b) in PingActions(ip, n) + [Upload(ip, binary)] <==> b == binary
    ensures (PingActions(ip, n) + [Upload(ip, binary)])[..n] == PingActions(ip, n)
  {
  }

  /** Every upload comes right after a ping of the same address that answered. */
  predicate UploadsFollowPings(acts: seq<Action>, ping: (string, nat) -> int) {
    forall i :: 0 <= i < |acts| && acts[i].Upload? ==>
      && i > 0
      && acts[i - 1].Ping?
      && acts[i - 1].ip == acts[i].ip
      && ping(acts[i].ip, acts[i - 1].attempt) == 0
  }

  /** An upload sends the binary of a known device type, and only after a successful ping. */
  lemma UpdateDeviceOrder(d: Device, args: Args, env: Env)
    ensures UploadsFollowPings(UpdateDevice(d, args, env).actions, env.ping)
    ensures forall a :: a in UpdateDevice(d, args, env).actions && a.Upload? ==>
              a.ip == d.ip && exists t :: Binary(KindName(t)) == Some(a.binary)
  {
    var v := Select(d, args);
    if v.Candidate? {
      var p := PingDevice(d.ip, MaxAttempts, env.ping);
      if p.reachable {
        PingThenUpload(d.ip, p.pings, v.binary, env.ping);
        var t :| d.kind == KindName(t);
        assert Binary(KindName(t)) == Some(v.binary);
      } else {
        PingsOnly(d.ip, p.pings, env.ping);
      }
    }
  }

  /** Pings followed by one upload to the same address, when the last ping answered. */
  lemma PingThenUpload(ip: string, n: nat, binary: string, ping: (string, nat) -> int)
    requires n > 0 && ping(ip, n - 1) == 0
    ensures UploadsFollowPings(PingActions(ip, n) + [Upload(ip, binary)], ping)
    ensures forall a :: a in PingActions(ip, n) + [Upload(ip, binary)] && a.Upload? ==> a == Upload(ip, binary)
  {
    var acts := PingActions(ip, n) + [Upload(ip, binary)];
    assert forall i :: 0 <= i < n ==> acts[i] == Ping(ip, i);
    assert acts[n - 1] == Ping(ip, n - 1);
  }

  lemma PingsOnly(ip: string, n: nat, ping: (string, nat) -> int)
    ensures UploadsFollowPings(PingActions(ip, n), ping)
    ensures forall a :: a in PingActions(ip, n) ==> a.Ping?
  {
  }

  lemma UploadsFollowPingsAppend(a: seq<Action>, b: seq<Action>, ping: (string, nat) -> int)
    requires UploadsFollowPings(a, ping) && UploadsFollowPings(b, ping)
    ensures UploadsFollowPings(a + b, ping)
  {
    forall i | 0 <= i < |a + b| && (a + b)[i].Upload?
      ensures i > 0 && (a + b)[i - 1].Ping? && (a + b)[i - 1].ip == (a + b)[i].ip
      ensures ping((a + b)[i].ip, (a + b)[i - 1].attempt) == 0
    {
      if i >= |a| {
        assert (a + b)[i] == b[i - |a|];
        assert (a + b)[i - 1] == b[i - |a| - 1];
      }
    }
  }

  /** The actions and reports of the update loop over all devices. */
  datatype Loop = Loop(actions: seq<Action>, reports: seq<Report>)

  function UpdateAll(devices: seq<Device>, args: Args, env: Env): (r: Loop)
    ensures |r.reports| == |devices|
    ensures forall i :: 0 <= i < |devices| ==> r.reports[i] == UpdateDevice(devices[i], args, env).report
    ensures |devices| == 1 ==> r.actions == UpdateDevice(devices[0], args, env).actions
  {
    if |devices| == 0 then Loop([], [])
    else
      var s := UpdateDevice(devices[0], args, env);
      var rest := UpdateAll(devices[1..], args, env);
      Loop(s.actions + rest.actions, [s.report] + rest.reports)
  }

  /** Updating two runs of devices in turn issues the actions of the first run, then those of the second. */
  lemma {:induction false} UpdateAllAppend(a: seq<Device>, b: seq<Device>, args: Args, env: Env)
    ensures UpdateAll(a + b, args, env).actions == UpdateAll(a, args, env).actions + UpdateAll(b, args, env).actions
    decreases |a|
  {
    if |a| == 0 {
      assert a + b == b;
    } else {
      assert (a + b)[1..] == a[1..] + b;
      UpdateAllAppend(a[1..], b, args, env);
    }
  }

  lemma {:induction false} UpdateAllOrder(devices: seq<Device>, args: Args, env: Env)
    ensures UploadsFollowPings(UpdateAll(devices, args, env).actions, env.ping)
    decreases |devices|
  {
    if |devices| > 0 {
      UpdateDeviceOrder(devices[0], args, env);
      UpdateAllOrder(devices[1..], args, env);
      UploadsFollowPingsAppend(UpdateDevice(devices[0], args, env).actions, UpdateAll(devices[1..], args, env).actions, env.ping);
    }
  }

  /** How the script ended: after the loop, by `sys.exit` on a failed compile, or on a missing config.txt. */
  datatype Exit = Finished | Exited(code: int) | ConfigMissing

  datatype Outcome = Outcome(actions: seq<Action>, reports: seq<Report>, exit: Exit)

  /** The whole script: compile, read config.txt (absent when `None`), update each device. */
  function Run(args: Args, config: Option<seq<string>>, env: Env): (o: Outcome)
    ensures o.exit.Exited? <==> exists i :: FirstFailedAt(SketchesToCompile(args), env.compile, i)
    ensures o.exit.Exited? ==> o.exit.code != 0 && o.reports == []
    ensures o.exit.ConfigMissing? <==> !o.exit.Exited? && config.None?
    ensures o.exit.Exited? ==> exists i :: FirstFailedAt(SketchesToCompile(args), env.compile, i)
                                           && o.exit.code == env.compile(SketchesToCompile(args)[i])
                                           && o.actions == seq(i + 1, j requires 0 <= j <= i => Compile(SketchesToCompile(args)[j]))
    ensures !o.exit.Exited? ==> |SketchesToCompile(args)| <= |o.actions|
    ensures !o.exit.Exited? ==> forall i :: 0 <= i < |SketchesToCompile(args)| ==> o.actions[i] == Compile(SketchesToCompile(args)[i])
    ensures o.exit.Finished? ==> |o.reports| == |ParseDevices(config.value)|
    ensures o.exit.Finished? ==> forall i :: 0 <= i < |o.reports| ==>
              o.reports[i] == UpdateDevice(ParseDevices(config.value)[i], args, env).report
    ensures o.exit.Finished? ==> o.actions[|SketchesToCompile(args)|..] == UpdateAll(ParseDevices(config.value), args, env).actions
    ensures o.exit.ConfigMissing? ==> |o.actions| == |SketchesToCompile(args)| && o.reports == []
  {
    var sketches := SketchesToCompile(args);
    var c := CompileAll(sketches, env.compile);
    if c.failure.Some? then
      FirstFailureUnique(sketches, env.compile);
      Outcome(c.actions, [], Exited(c.failure.value))
    else if config.None? then
      Outcome(c.actions, [], ConfigMissing)
    else
      var l := UpdateAll(ParseDevices(config.value), args, env);
      Outcome(c.actions + l.actions, l.reports, Finished)
  }

  lemma FirstFailureUnique(sketches: seq<string>, compile: string -> int)
    ensures forall i, j :: FirstFailedAt(sketches, compile, i) && FirstFailedAt(sketches, compile, j) ==> i == j
  {
  }

  /** A failed compile ends the script before any device is pinged or updated. */
  lemma CompileFailureStops(args: Args, config: Option<seq<string>>, env: Env)
    requires Run(args, config, env).exit.Exited?
    ensures forall a :: a in Run(args, config, env).actions ==> a.Compile?
  {
  }

  /** Over the whole script, every upload follows a successful ping of the same device, and carries a known binary. */
  lemma UploadOnlyAfterPing(args: Args, config: Option<seq<string>>, env: Env)
    ensures UploadsFollowPings(Run(args, config, env).actions, env.ping)
  {
    var c := CompileAll(SketchesToCompile(args), env.compile);
    assert UploadsFollowPings(c.actions, env.ping);
    if c.failure.None? && config.Some? {
      var devices := ParseDevices(config.value);
      UpdateAllOrder(devices, args, env);
      UploadsFollowPingsAppend(c.actions, UpdateAll(devices, args, env).actions, env.ping);
    }
  }
}

=== FILE: text.dfy ===
/**
 The few Python `str` operations the scripts rely on: `isspace`, `strip`,
 `lstrip(ch)`, `lower`, `startswith`, `in`, `split(sep)` and `sep.join(parts)`.
 Case conversion is ASCII-only.
 */
module Text {
  import opened Wrappers

  /** Python's `str.isspace()` for one character; it is also the `\s` class of a `str` regex. */
  predicate IsSpace(c: char) {
    || ('\t' <= c && c <= '\r')
    || ('\U{1C}' <= c && c <= ' ')
    || c == '\U{85}' || c == '\U{A0}' || c == '\U{1680}'
    || ('\U{2000}' <= c && c <= '\U{200A}')
    || c == '\U{2028}' || c == '\U{2029}' || c == '\U{202F}' || c == '\U{205F}' || c == '\U{3000}'
  }

  /** Every character of `s` is whitespace. */
  predicate AllSpace(s: string) {
    forall k :: 0 <= k < |s| ==> IsSpace(s[k])
  }

  /** `str.lower()` on one character, for the ASCII letters. */
  function LowerChar(c: char): (l: char)
    ensures 'A' <= c <= 'Z' ==> l as int == c as int + 32
    ensures !('A' <= c <= 'Z') ==> l == c
  {
    if 'A' <= c <= 'Z' then (c as int + 32) as char else c
  }

  /** `str.lower()`, for the ASCII letters. */
  function Lower(s: string): (r: string)
    ensures |r| == |s|
    ensures forall k :: 0 <= k < |s| ==> r[k] == LowerChar(s[k])
  {
    seq(|s|, k requires 0 <= k < |s| => LowerChar(s[k]))
  }

  /** Lower-casing never produces or removes whitespace, and is idempotent. */
  lemma LowerCharKeepsClass(c: char)
    ensures IsSpace(LowerChar(c)) <==> IsSpace(c)
    ensures LowerChar(LowerChar(c)) == LowerChar(c)
    ensures LowerChar(c) != c ==> 'A' <= c <= 'Z'
  {
  }

  /** `s.startswith(ch)` for a one-character prefix. */
  predicate StartsWith(s: string, ch: char) {
    |s| > 0 && s[0] == ch
  }

  /** `s.lstrip()`: drop the leading whitespace. */
  function TrimStart(s: string): (r: string)
    ensures |r| <= |s| && r == s[|s| - |r|..]
    ensures AllSpace(s[..|s| - |r|])
    ensures r == [] || !IsSpace(r[0])
    decreases |s|
  {
    if |s| > 0 && IsSpace(s[0]) then
      var r := TrimStart(s[1..]);
      assert s[..|s| - |r|] == [s[0]] + s[1..][..|s| - 1 - |r|];
      r
    else
      s
  }

  /** `s.rstrip()`: drop the trailing whitespace. */
  function TrimEnd(s: string): (r: string)
    ensures |r| <= |s| && r == s[..|r|]
    ensures AllSpace(s[|r|..])
    ensures r == [] || !IsSpace(r[|r| - 1])
    decreases |s|
  {
    if |s| > 0 && IsSpace(s[|s| - 1]) then
      var r := TrimEnd(s[..|s| - 1]);
      assert s[|r|..] == s[..|s| - 1][|r|..] + [s[|s| - 1]];
      r
    else
      s
  }

  /** `r` is the slice of `s` starting at `i`, with only whitespace around it. */
  predicate SpaceAround(s: string, i: int, r: string) {
    0 <= i <= |s| - |r| && r == s[i..i + |r|] && AllSpace(s[..i]) && AllSpace(s[i + |r|..])
  }

  /** `s.strip()`: the part of `s` between its leading and trailing whitespace. */
  function Strip(s: string): (r: string)
    ensures exists i :: SpaceAround(s, i, r)
    ensures r == [] || (!IsSpace(r[0]) && !IsSpace(r[|r| - 1]))
  {
    StripParts(s);
    TrimEnd(TrimStart(s))
  }

  /** A string that neither starts nor ends with whitespace is its own strip. */
  lemma StripUntrimmed(s: string)
    requires s == [] || (!IsSpace(s[0]) && !IsSpace(s[|s| - 1]))
    ensures Strip(s) == s
  {
    assert TrimStart(s) == s;
  }

  /** Trimming both ends leaves the middle of `s`, with whitespace only around it. */
  lemma StripParts(s: string)
    ensures var r := TrimEnd(TrimStart(s));
      && SpaceAround(s, |s| - |TrimStart(s)|, r)
      && (r == [] || (!IsSpace(r[0]) && !IsSpace(r[|r| - 1])))
  {
    var t := TrimStart(s);
    var r := TrimEnd(t);
    AroundCompose(s, |s| - |t|, t, r);
    assert r == [] || r[0] == t[0];
  }

  /** A prefix of a suffix, each cut off by whitespace, is the middle of `s` with whitespace around it. */
  lemma AroundCompose(s: string, i: nat, t: string, r: string)
    requires i <= |s| && t == s[i..] && AllSpace(s[..i])
    requires |r| <= |t| && r == t[..|r|] && AllSpace(t[|r|..])
    ensures SpaceAround(s, i, r)
  {
    SuffixPrefix(s, i, |r|);
  }

  lemma SuffixPrefix(s: string, i: nat, n: nat)
    requires i + n <= |s|
    ensures s[i..][..n] == s[i..i + n]
    ensures s[i..][n..] == s[i + n..]
  {
  }

  /** `s.lstrip(ch)`: drop every leading `ch`. */
  function TrimStartChar(s: string, ch: char): (r: string)
    ensures |r| <= |s| && r == s[|s| - |r|..]
    ensures forall k :: 0 <= k < |s| - |r| ==> s[k] == ch
    ensures !StartsWith(r, ch)
    decreases |s|
  {
    if StartsWith(s, ch) then
      var r := TrimStartChar(s[1..], ch);
      assert s[1..][|s| - 1 - |r|..] == s[|s| - |r|..];
      r
    else
      s
  }

  /** Number of occurrences of `c` in `s`. */
  function CountChar(s: string, c: char): nat {
    if |s| == 0 then 0 else (if s[0] == c then 1 else 0) + CountChar(s[1..], c)
  }

  lemma {:induction false} CountCharAppend(a: string, b: string, c: char)
    ensures CountChar(a + b, c) == CountChar(a, c) + CountChar(b, c)
    decreases |a|
  {
    if |a| == 0 {
      assert a + b == b;
    } else {
      assert (a + b)[1..] == a[1..] + b;
      CountCharAppend(a[1..], b, c);
    }
  }

  lemma {:induction false} CountCharPositive(s: string, c: char)
    ensures c in s <==> CountChar(s, c) > 0
    decreases |s|
  {
    if |s| > 0 {
      CountCharPositive(s[1..], c);
      assert c in s <==> s[0] == c || c in s[1..];
    }
  }

  /** `sub` occurs in `s` at index `k`. */
  predicate OccursAt(s: string, sub: string, k: int) {
    0 <= k && k + |sub| <= |s| && s[k..k + |sub|] == sub
  }

  /** Python's `sub in s`. */
  predicate Contains(s: string, sub: string) {
    exists k :: 0 <= k <= |s| - |sub| && OccursAt(s, sub, k)
  }

  /** Index of the first occurrence of `sub` in `s` at or after `from` (`s.find(sub, from)`). */
  function FindFrom(s: string, sub: string, from: nat): (r: Option<nat>)
    ensures r.Some? ==> from <= r.value && OccursAt(s, sub, r.value)
    ensures r.Some? ==> forall k :: from <= k < r.value ==> !OccursAt(s, sub, k)
    ensures r.None? ==> forall k :: from <= k ==> !OccursAt(s, sub, k)
    decreases |s| - from
  {
    if from + |sub| > |s| then None
    else if s[from..from + |sub|] == sub then Some(from)
    else FindFrom(s, sub, from + 1)
  }

  /** `s.split(sep)` for a non-empty separator: cut at each leftmost non-overlapping occurrence. */
  function Split(s: string, sep: string): (parts: seq<string>)
    requires |sep| > 0
    ensures |parts| >= 1
    decreases |s|
  {
    match FindFrom(s, sep, 0)
    case None => [s]
    case Some(k) => [s[..k]] + Split(s[k + |sep|..], sep)
  }

  /** No piece of a split contains the separator. */
  lemma {:induction false} SplitPiecesFree(s: string, sep: string)
    requires |sep| > 0
    ensures forall p :: p in Split(s, sep) ==> !Contains(p, sep)
    decreases |s|
  {
    var found := FindFrom(s, sep, 0);
    if found.None? {
      FirstPieceFree(s, sep, |s|);
      assert s[..|s|] == s;
    } else {
      var k := found.value;
      FirstPieceFree(s, sep, k);
      SplitPiecesFree(s[k + |sep|..], sep);
    }
  }

  /** The text before the first occurrence of `sep` does not contain `sep`. */
  lemma FirstPieceFree(s: string, sep: string, k: nat)
    requires |sep| > 0 && k <= |s|
    requires forall j :: 0 <= j < k ==> !OccursAt(s, sep, j)
    ensures !Contains(s[..k], sep)
  {
    var head := s[..k];
    forall j | 0 <= j <= |head| - |sep|
      ensures !OccursAt(head, sep, j)
    {
      assert j < k && !OccursAt(s, sep, j);
      assert head[j..j + |sep|] == s[j..j + |sep|];
    }
  }

  /** The summed lengths of the pieces. */
  function TotalLength(parts: seq<string>): nat {
    if |parts| == 0 then 0 else |parts[0]| + TotalLength(parts[1..])
  }

  /** `sep.join(parts)`. */
  function Join(parts: seq<string>, sep: string): (r: string)
    ensures |parts| == 0 ==> r == ""
    ensures |parts| > 0 ==> |r| == TotalLength(parts) + (|parts| - 1) * |sep|
  {
    if |parts| == 0 then ""
    else if |parts| == 1 then parts[0]
    else parts[0] + sep + Join(parts[1..], sep)
  }

  /** Joining the pieces of a split with the same separator gives back the original string. */
  lemma {:induction false} JoinSplit(s: string, sep: string)
    requires |sep| > 0
    ensures Join(Split(s, sep), sep) == s
    decreases |s|
  {
    if FindFrom(s, sep, 0).Some? {
      var k := SplitUnfold(s, sep);
      var rest := s[k + |sep|..];
      JoinSplit(rest, sep);
      JoinCons(s[..k], Split(rest, sep), sep);
    } else {
      assert Split(s, sep) == [s];
    }
  }

  /** Every cut but the last is at the leftmost occurrence of `sep`: a piece followed by `sep` first contains `sep` at its end. */
  predicate CutsLeftmost(parts: seq<string>, sep: string) {
    forall i :: 0 <= i < |parts| - 1 ==> FindFrom(parts[i] + sep, sep, 0) == Some(|parts[i]|)
  }

  /** `s.split(sep)` cuts each time at the leftmost remaining occurrence of the separator. */
  lemma {:induction false} SplitLeftmost(s: string, sep: string)
    requires |sep| > 0
    ensures CutsLeftmost(Split(s, sep), sep)
    decreases |s|
  {
    if FindFrom(s, sep, 0).Some? {
      var k := SplitUnfold(s, sep);
      SplitLeftmost(s[k + |sep|..], sep);
      FirstCut(s, sep, k);
      CutsLeftmostCons(s[..k], Split(s[k + |sep|..], sep), sep);
    }
  }

  lemma CutsLeftmostCons(head: string, tail: seq<string>, sep: string)
    requires FindFrom(head + sep, sep, 0) == Some(|head|) && CutsLeftmost(tail, sep)
    ensures CutsLeftmost([head] + tail, sep)
  {
    var parts := [head] + tail;
    forall i | 1 <= i < |parts| - 1
      ensures FindFrom(parts[i] + sep, sep, 0) == Some(|parts[i]|)
    {
      assert parts[i] == tail[i - 1];
    }
  }

  /** The first occurrence of `sep` in `s` is at `k`, so it is also the first in `s[..k] + sep`. */
  lemma FirstCut(s: string, sep: string, k: nat)
    requires FindFrom(s, sep, 0) == Some(k)
    ensures FindFrom(s[..k] + sep, sep, 0) == Some(k)
  {
    var t := s[..k] + sep;
    assert t == s[..k + |sep|];
    forall j | 0 <= j < k
      ensures !OccursAt(t, sep, j)
    {
      assert !OccursAt(s, sep, j);
      assert t[j..j + |sep|] == s[j..j + |sep|];
    }
    assert t[k..k + |sep|] == sep;
    FindFromExact(t, sep, k);
  }

  /** The occurrence at `k` with none before it is the one `FindFrom` reports. */
  lemma FindFromExact(s: string, sub: string, k: nat)
    requires OccursAt(s, sub, k) && forall j :: 0 <= j < k ==> !OccursAt(s, sub, j)
    ensures FindFrom(s, sub, 0) == Some(k)
  {
  }

  /**
   Leftmost cuts, a last piece without the separator and joining back to `s` single out
   `s.split(sep)`: no other list of pieces meets all three.
   */
  lemma {:induction false} SplitUnique(s: string, sep: string, parts: seq<string>)
    requires |sep| > 0 && |parts| >= 1
    requires Join(parts, sep) == s && CutsLeftmost(parts, sep) && !Contains(parts[|parts| - 1], sep)
    ensures parts == Split(s, sep)
    decreases |parts|
  {
    if |parts| == 1 {
      NoSeparatorWhole(s, sep);
    } else {
      var tail := parts[1..];
      assert parts == [parts[0]] + tail;
      JoinCons(parts[0], tail, sep);
      SplitStep(parts[0], Join(tail, sep), sep);
      forall i | 0 <= i < |tail| - 1
        ensures FindFrom(tail[i] + sep, sep, 0) == Some(|tail[i]|)
      {
        assert tail[i] == parts[i + 1];
      }
      SplitUnique(Join(tail, sep), sep, tail);
    }
  }

  /** A string without the separator splits into itself alone. */
  lemma NoSeparatorWhole(s: string, sep: string)
    requires |sep| > 0 && !Contains(s, sep)
    ensures Split(s, sep) == [s]
  {
  }

  /** A piece whose first `sep` is the one after it is cut off first. */
  lemma SplitStep(head: string, rest: string, sep: string)
    requires |sep| > 0 && FindFrom(head + sep, sep, 0) == Some(|head|)
    ensures Split(head + sep + rest, sep) == [head] + Split(rest, sep)
  {
    var s := head + sep + rest;
    LeftmostInText(head + sep, rest, sep, |head|);
    var k := SplitUnfold(s, sep);
    assert s[..k] == head;
    assert s[k + |sep|..] == rest;
  }

  /** The first occurrence of `sep` in a prefix ending with `sep` is the first in the whole text. */
  lemma LeftmostInText(u: string, v: string, sep: string, k: nat)
    requires |u| == k + |sep| && FindFrom(u, sep, 0) == Some(k)
    ensures FindFrom(u + v, sep, 0) == Some(k)
  {
    var t := u + v;
    forall j | 0 <= j <= k
      ensures OccursAt(t, sep, j) == OccursAt(u, sep, j)
    {
      assert t[j..j + |sep|] == u[j..j + |sep|];
    }
    FindFromExact(t, sep, k);
  }

  /** One step of a split that found the separator at `k`. */
  lemma SplitUnfold(s: string, sep: string) returns (k: nat)
    requires |sep| > 0 && FindFrom(s, sep, 0).Some?
    ensures FindFrom(s, sep, 0) == Some(k) && k + |sep| <= |s|
    ensures Split(s, sep) == [s[..k]] + Split(s[k + |sep|..], sep)
    ensures s == s[..k] + sep + s[k + |sep|..]
  {
    k := FindFrom(s, sep, 0).value;
    SliceAround(s, k, |sep|);
  }

  lemma SliceAround<T>(s: seq<T>, k: nat, n: nat)
    requires k + n <= |s|
    ensures s == s[..k] + s[k..k + n] + s[k + n..]
  {
  }

  lemma JoinCons(head: string, tail: seq<string>, sep: string)
    requires |tail| >= 1
    ensures Join([head] + tail, sep) == head + sep + Join(tail, sep)
  {
    assert ([head] + tail)[1..] == tail;
  }

  /** Splitting on one character yields one more piece than there are occurrences of it. */
  lemma {:induction false} SplitCharCount(s: string, c: char)
    ensures |Split(s, [c])| == CountChar(s, c) + 1
    decreases |s|
  {
    match FindFrom(s, [c], 0)
    case None =>
      NotFoundNotIn(s, c, |s|);
      assert s[..|s|] == s;
    case Some(k) =>
      var rest := s[k + 1..];
      SplitCharCount(rest, c);
      NotFoundNotIn(s, c, k);
      assert s[k..k + 1] == [c];
      assert s == s[..k] + ([c] + rest);
      CountCharAppend(s[..k], [c] + rest, c);
      CountCharAppend([c], rest, c);
  }

  /** A character not found before `k` does not occur in `s[..k]`. */
  lemma NotFoundNotIn(s: string, c: char, k: nat)
    requires k <= |s| && forall j :: 0 <= j < k ==> !OccursAt(s, [c], j)
    ensures CountChar(s[..k], c) == 0
  {
    forall j | 0 <= j < k
      ensures s[j] != c
    {
      assert !OccursAt(s, [c], j);
      assert s[j..j + 1] == [s[j]];
    }
    assert c !in s[..k];
    CountCharPositive(s[..k], c);
  }
}

=== FILE: voice.dfy ===
/**
 main_voice.py: one `scan_file_for_phrases` over the transcription file's content.
 The two patterns are the regular expressions
   light\s*[.,;!?]*\s*on\s*[.,;!?]*\s     and     light\s*[.,;!?]*\s*off\s*[.,;!?]*\s
 searched case-insensitively anywhere in the content. `InPattern` states what a
 word of a pattern is by its split points, `Occurs` what a successful search is,
 and `Search` is a greedy matcher proved to agree with them.
 */
module Voice {
  import opened Wrappers
  import Text

  /** The commands sent to the light over Telnet. */
  const OnCommand := "0"
  const OffCommand := "180"

  /** Which of the two patterns. */
  datatype Switch = On | Off

  /** The keyword of a pattern, in lower case. */
  function Keyword(sw: Switch): (kw: string)
    ensures |kw| >= 2 && kw[0] == 'o'
  {
    match sw
    case On => "on"
    case Off => "off"
  }

  /** The class `[.,;!?]`. */
  predicate IsPunct(c: char) {
    c == '.' || c == ',' || c == ';' || c == '!' || c == '?'
  }

  /** The two character classes the patterns repeat. */
  datatype Class = Space | Punct

  predicate InClass(c: char, cls: Class) {
    match cls
    case Space => Text.IsSpace(c)
    case Punct => IsPunct(c)
  }

  /** `s[i..j]` consists of characters of the class. */
  predicate Run(s: string, i: int, j: int, cls: Class) {
    0 <= i <= j <= |s| && forall k :: i <= k < j ==> InClass(s[k], cls)
  }

  /** The lower-case literal `lit` stands at `s[i..]`, ignoring case. */
  predicate LiteralAt(s: string, i: int, lit: string) {
    0 <= i && i + |lit| <= |s| && Text.Lower(s[i..i + |lit|]) == lit
  }

  /**
   The split points of `w` as `light`, `\s*` up to `b`, `[.,;!?]*` up to `c`, `\s*` up to `d`,
   the keyword, `\s*` up to `f`, `[.,;!?]*` up to `g`, and one whitespace character that ends `w`.
   */
  predicate SplitsAs(w: string, sw: Switch, b: int, c: int, d: int, f: int, g: int) {
    var kw := Keyword(sw);
    && LiteralAt(w, 0, "light")
    && Run(w, 5, b, Space) && Run(w, b, c, Punct) && Run(w, c, d, Space)
    && LiteralAt(w, d, kw)
    && Run(w, d + |kw|, f, Space) && Run(w, f, g, Punct)
    && g + 1 == |w| && Text.IsSpace(w[g])
  }

  /** `w` as a whole is a word of the pattern. */
  ghost predicate InPattern(w: string, sw: Switch) {
    exists b, c, d, f, g :: SplitsAs(w, sw, b, c, d, f, g)
  }

  /** `pattern.search(s)` finds a match: some substring of `s` is a word of the pattern. */
  ghost predicate Occurs(s: string, sw: Switch) {
    exists i, j :: 0 <= i <= j <= |s| && InPattern(s[i..j], sw)
  }

  /** The end of the longest run of the class starting at `i`. */
  function Skip(s: string, i: nat, cls: Class): (j: nat)
    requires i <= |s|
    ensures Run(s, i, j, cls)
    ensures j == |s| || !InClass(s[j], cls)
    decreases |s| - i
  {
    if i < |s| && InClass(s[i], cls) then Skip(s, i + 1, cls) else i
  }

  /** A run that cannot be extended is the longest one. */
  lemma {:induction false} SkipExact(s: string, i: nat, j: nat, cls: Class)
    requires Run(s, i, j, cls) && (j == |s| || !InClass(s[j], cls))
    ensures Skip(s, i, cls) == j
    decreases j - i
  {
    if i < j {
      assert InClass(s[i], cls);
      SkipExact(s, i + 1, j, cls);
    }
  }

  /**
   The matcher at the start of `t`: after `light`, take the longest runs of
   whitespace, punctuation and whitespace, then the keyword, then the longest run of
   punctuation, which must be followed by whitespace.
   */
  function MatchesAtStart(t: string, sw: Switch): bool {
    LiteralAt(t, 0, "light") && KeywordAfter(t, Middle(t), sw)
  }

  /** Where the keyword must start: after the longest runs of whitespace, punctuation and whitespace behind `light`. */
  function Middle(t: string): nat
    requires 5 <= |t|
  {
    Skip(t, Skip(t, Skip(t, 5, Space), Punct), Space)
  }

  /** The keyword stands at `d`, and the longest punctuation run after it is followed by whitespace. */
  predicate KeywordAfter(t: string, d: nat, sw: Switch) {
    var kw := Keyword(sw);
    && LiteralAt(t, d, kw)
    && var g := Skip(t, d + |kw|, Punct);
    && g < |t| && Text.IsSpace(t[g])
  }

  /** A character whose lower case is `o` is neither whitespace nor punctuation. */
  lemma KeywordStartIsLetter(c: char)
    requires Text.LowerChar(c) == 'o'
    ensures !Text.IsSpace(c) && !IsPunct(c)
  {
  }

  lemma LiteralPrefix(t: string, n: nat, i: nat, lit: string)
    requires n <= |t| && i + |lit| <= n
    ensures LiteralAt(t[..n], i, lit) <==> LiteralAt(t, i, lit)
  {
    assert t[..n][i..i + |lit|] == t[i..i + |lit|];
  }

  lemma RunPrefix(t: string, n: nat, i: int, j: int, cls: Class)
    requires n <= |t| && j <= n
    ensures Run(t[..n], i, j, cls) <==> Run(t, i, j, cls)
  {
  }

  /** The greedy matcher succeeds at the start of `t` exactly when some prefix of `t` is a word of the pattern. */
  lemma MatchesAtStartCorrect(t: string, sw: Switch)
    ensures MatchesAtStart(t, sw) <==> exists n :: 0 <= n <= |t| && InPattern(t[..n], sw)
  {
    if MatchesAtStart(t, sw) {
      var n := GreedySound(t, sw);
    }
    if exists n :: 0 <= n <= |t| && InPattern(t[..n], sw) {
      var n :| 0 <= n <= |t| && InPattern(t[..n], sw);
      GreedyComplete(t, sw, n);
    }
  }

  /** What the greedy matcher finds is a word of the pattern. */
  lemma GreedySound(t: string, sw: Switch) returns (n: nat)
    requires MatchesAtStart(t, sw)
    ensures n <= |t| && InPattern(t[..n], sw)
  {
    var kw := Keyword(sw);
    var b := Skip(t, 5, Space);
    var c := Skip(t, b, Punct);
    var d := Skip(t, c, Space);
    var g := Skip(t, d + |kw|, Punct);
    n := g + 1;
    var w := t[..n];
    LiteralPrefix(t, n, 0, "light");
    LiteralPrefix(t, n, d, kw);
    RunPrefix(t, n, 5, b, Space);
    RunPrefix(t, n, b, c, Punct);
    RunPrefix(t, n, c, d, Space);
    RunPrefix(t, n, d + |kw|, g, Punct);
    assert Run(w, d + |kw|, d + |kw|, Space);
    assert SplitsAs(w, sw, b, c, d, d + |kw|, g);
  }

  /** Any word of the pattern at the start of `t` is found by the greedy matcher. */
  lemma GreedyComplete(t: string, sw: Switch, n: nat)
    requires n <= |t| && InPattern(t[..n], sw)
    ensures MatchesAtStart(t, sw)
  {
    var b, c, d, f, g :| SplitsAs(t[..n], sw, b, c, d, f, g);
    SplitInText(t, sw, n, b, c, d, f, g);
    MiddleGreedy(t, b, c, d);
    TailGreedy(t, d + |Keyword(sw)|, f, g);
  }

  /** The parts of a split of a prefix of `t` are parts of `t` itself. */
  lemma SplitInText(t: string, sw: Switch, n: nat, b: int, c: int, d: int, f: int, g: int)
    requires n <= |t| && SplitsAs(t[..n], sw, b, c, d, f, g)
    ensures LiteralAt(t, 0, "light") && LiteralAt(t, d, Keyword(sw))
    ensures Run(t, 5, b, Space) && Run(t, b, c, Punct) && Run(t, c, d, Space)
    ensures Run(t, d + |Keyword(sw)|, f, Space) && Run(t, f, g, Punct)
    ensures g < |t| && Text.IsSpace(t[g])
    ensures d < |t| && !Text.IsSpace(t[d]) && !IsPunct(t[d])
  {
    var kw := Keyword(sw);
    LiteralPrefix(t, n, 0, "light");
    LiteralPrefix(t, n, d, kw);
    RunPrefix(t, n, 5, b, Space);
    RunPrefix(t, n, b, c, Punct);
    RunPrefix(t, n, c, d, Space);
    RunPrefix(t, n, d + |kw|, f, Space);
    RunPrefix(t, n, f, g, Punct);
    assert t[..n][g] == t[g];
    assert Text.Lower(t[d..d + |kw|])[0] == kw[0];
    KeywordStartIsLetter(t[d]);
  }

  /** The greedy runs behind `light` end where any split's runs do, when a keyword letter follows. */
  lemma MiddleGreedy(t: string, b: int, c: int, d: int)
    requires Run(t, 5, b, Space) && Run(t, b, c, Punct) && Run(t, c, d, Space)
    requires d < |t| && !Text.IsSpace(t[d]) && !IsPunct(t[d])
    ensures Middle(t) == d
  {
    if b < c {
      SkipExact(t, 5, b, Space);
      SkipExact(t, b, c, Punct);
      SkipExact(t, c, d, Space);
    } else {
      assert Run(t, 5, d, Space);
      SkipExact(t, 5, d, Space);
      SkipExact(t, d, d, Punct);
      SkipExact(t, d, d, Space);
    }
  }

  /** After the keyword, the greedy punctuation run is followed by whitespace whenever some split's is. */
  lemma TailGreedy(t: string, e: int, f: int, g: int)
    requires Run(t, e, f, Space) && Run(t, f, g, Punct) && g < |t| && Text.IsSpace(t[g])
    ensures Skip(t, e, Punct) < |t| && Text.IsSpace(t[Skip(t, e, Punct)])
  {
    if e < f {
      SkipExact(t, e, e, Punct);
    } else {
      SkipExact(t, e, g, Punct);
    }
  }

  /** The matcher succeeds at some start position from `i` on. */
  ghost predicate MatchesFrom(s: string, sw: Switch, i: nat) {
    exists k :: i <= k <= |s| && MatchesAtStart(s[k..], sw)
  }

  /** Scan the start positions from `i` on, as `search` does. */
  function SearchFrom(s: string, sw: Switch, i: nat): (found: bool)
    requires i <= |s|
    ensures found <==> MatchesFrom(s, sw, i)
    decreases |s| - i
  {
    MatchesFromStep(s, sw, i);
    MatchesAtStart(s[i..], sw) || (i < |s| && SearchFrom(s, sw, i + 1))
  }

  lemma MatchesFromStep(s: string, sw: Switch, i: nat)
    requires i <= |s|
    ensures MatchesFrom(s, sw, i) <==> MatchesAtStart(s[i..], sw) || (i < |s| && MatchesFrom(s, sw, i + 1))
  {
    if MatchesFrom(s, sw, i) && !MatchesAtStart(s[i..], sw) {
      var k :| i <= k <= |s| && MatchesAtStart(s[k..], sw);
      assert k != i;
    }
  }

  /** `pattern.search(s) is not None`. */
  function Search(s: string, sw: Switch): (found: bool)
    ensures found <==> Occurs(s, sw)
  {
    SearchCorrect(s, sw);
    SearchFrom(s, sw, 0)
  }

  lemma SearchCorrect(s: string, sw: Switch)
    ensures SearchFrom(s, sw, 0) <==> Occurs(s, sw)
  {
    if SearchFrom(s, sw, 0) {
      var k :| 0 <= k <= |s| && MatchesAtStart(s[k..], sw);
      FoundOccurs(s, sw, k);
    }
    if Occurs(s, sw) {
      var i, j :| 0 <= i <= j <= |s| && InPattern(s[i..j], sw);
      OccursFound(s, sw, i, j);
    }
  }

  lemma FoundOccurs(s: string, sw: Switch, k: nat)
    requires k <= |s| && MatchesAtStart(s[k..], sw)
    ensures Occurs(s, sw)
  {
    var n := GreedySound(s[k..], sw);
    assert s[k..][..n] == s[k..k + n];
  }

  lemma OccursFound(s: string, sw: Switch, i: nat, j: nat)
    requires i <= j <= |s| && InPattern(s[i..j], sw)
    ensures SearchFrom(s, sw, 0)
  {
    var t := s[i..];
    assert t[..j - i] == s[i..j];
    GreedyComplete(t, sw, j - i);
  }

  /** The command one scan sends, if any, and the file's content after it. */
  datatype Reaction = Reaction(sent: Option<string>, content: string)

  /**
   `scan_file_for_phrases`: an "on" phrase wins over an "off" phrase; a detection
   sends its command and clears the file, and no detection changes nothing.
   */
  function ScanFileForPhrases(content: string): (r: Reaction)
    ensures r.sent == Some(OnCommand) <==> Occurs(content, On)
    ensures r.sent == Some(OffCommand) <==> !Occurs(content, On) && Occurs(content, Off)
    ensures r.sent.None? <==> !Occurs(content, On) && !Occurs(content, Off)
    ensures r.sent.Some? ==> r.content == ""
    ensures r.sent.None? ==> r.content == content
  {
    if Search(content, On) then Reaction(Some(OnCommand), "")
    else if Search(content, Off) then Reaction(Some(OffCommand), "")
    else Reaction(None, content)
  }

  /** A word of either pattern is at least eight characters long and ends in whitespace. */
  lemma PatternShape(w: string, sw: Switch)
    requires InPattern(w, sw)
    ensures |w| >= 8 && Text.IsSpace(w[|w| - 1])
  {
  }

  /** A match needs a whitespace character at index 7 or later. */
  lemma NoLateSpaceNoMatch(s: string, sw: Switch)
    requires forall k :: 7 <= k < |s| ==> !Text.IsSpace(s[k])
    ensures !Occurs(s, sw)
  {
    forall i, j | 0 <= i <= j <= |s| && InPattern(s[i..j], sw)
      ensures false
    {
      PatternShape(s[i..j], sw);
    }
  }

  /** Scanning the content a detection leaves behind sends nothing: one phrase fires once. */
  lemma DetectionFiresOnce(content: string)
    ensures ScanFileForPhrases(content).sent.Some? ==>
              ScanFileForPhrases(ScanFileForPhrases(content).content) == Reaction(None, "")
  {
    forall sw, i, j | 0 <= i <= j <= 0 && InPattern(""[i..j], sw)
      ensures false
    {
      PatternShape(""[i..j], sw);
    }
  }

  /** The search ignores case: lower-casing the content does not change whether a pattern occurs. */
  lemma SearchIgnoresCase(s: string, sw: Switch)
    ensures Occurs(Text.Lower(s), sw) <==> Occurs(s, sw)
  {
    SearchCorrect(s, sw);
    SearchCorrect(Text.Lower(s), sw);
    SearchFromLower(s, sw, 0);
  }

  lemma {:induction false} SearchFromLower(s: string, sw: Switch, i: nat)
    requires i <= |s|
    ensures SearchFrom(Text.Lower(s), sw, i) == SearchFrom(s, sw, i)
    decreases |s| - i
  {
    assert Text.Lower(s)[i..] == Text.Lower(s[i..]);
    MatchesAtStartLower(s[i..], sw);
    if i < |s| {
      SearchFromLower(s, sw, i + 1);
    }
  }

  lemma MatchesAtStartLower(t: string, sw: Switch)
    ensures MatchesAtStart(Text.Lower(t), sw) == MatchesAtStart(t, sw)
  {
    LiteralLower(t, 0, "light");
    if 5 <= |t| {
      var d := MiddleLower(t);
      KeywordAfterLower(t, d, sw);
    }
  }

  /** The three runs between `light` and the keyword end at the same place in `t` and its lower case. */
  lemma MiddleLower(t: string) returns (d: nat)
    requires 5 <= |t|
    ensures d == Middle(t) == Middle(Text.Lower(t))
  {
    var b := Skip(t, 5, Space);
    SkipLower(t, 5, Space);
    var c := Skip(t, b, Punct);
    SkipLower(t, b, Punct);
    d := Skip(t, c, Space);
    SkipLower(t, c, Space);
  }

  lemma KeywordAfterLower(t: string, d: nat, sw: Switch)
    ensures KeywordAfter(Text.Lower(t), d, sw) == KeywordAfter(t, d, sw)
  {
    var kw := Keyword(sw);
    LiteralLower(t, d, kw);
    if d + |kw| <= |t| {
      SkipLower(t, d + |kw|, Punct);
      var g := Skip(t, d + |kw|, Punct);
      if g < |t| {
        Text.LowerCharKeepsClass(t[g]);
        assert Text.Lower(t)[g] == Text.LowerChar(t[g]);
      }
    }
  }

  lemma LiteralLower(t: string, i: nat, lit: string)
    ensures LiteralAt(Text.Lower(t), i, lit) == LiteralAt(t, i, lit)
  {
    if i + |lit| <= |t| {
      var a := Text.Lower(t)[i..i + |lit|];
      var b := t[i..i + |lit|];
      forall k | 0 <= k < |lit|
        ensures Text.Lower(a)[k] == Text.Lower(b)[k]
      {
        Text.LowerCharKeepsClass(t[i + k]);
      }
      assert Text.Lower(a) == Text.Lower(b);
    }
  }

  lemma {:induction false} SkipLower(t: string, i: nat, cls: Class)
    requires i <= |t|
    ensures Skip(Text.Lower(t), i, cls) == Skip(t, i, cls)
    decreases |t| - i
  {
    if i < |t| {
      Text.LowerCharKeepsClass(t[i]);
      assert InClass(Text.Lower(t)[i], cls) == InClass(t[i], cls);
      SkipLower(t, i + 1, cls);
    }
  }

  /** "flight on " contains "light on " followed by nothing: no word boundary is needed. */
  lemma FlightOnMatches()
    ensures ScanFileForPhrases("flight on ").sent == Some(OnCommand)
  {
    var s := "flight on ";
    var w := s[1..10];
    assert w == "light on ";
    assert Text.Lower(w[0..5]) == "light";
    assert Text.Lower(w[6..8]) == "on";
    assert SplitsAs(w, On, 5, 5, 6, 8, 8);
  }

  /** "light on" at the very end of the content, with no whitespace after it, is not a match. */
  lemma NoTrailingSpaceNoMatch()
    ensures ScanFileForPhrases("light on").sent.None?
  {
    var s := "light on";
    assert s[7] == 'n';
    NoLateSpaceNoMatch(s, On);
    NoLateSpaceNoMatch(s, Off);
  }
}

=== FILE: wrappers.dfy ===
/** Option and result types shared by the modules of the model. */
module Wrappers {

  /** A value that may be absent (Python's `None`, or a missing dictionary key). */
  datatype Option<+T> = None | Some(value: T)

  /** The outcome of an operation that may raise: a value, or the exception it raised. */
  datatype Result<+R, +E> = Success(value: R) | Failure(error: E)
}
